=== FILE: README.md ===
# ampersand-state, modelled in Dafny

A model of the core of ampersand-state, the observable-state object of the Ampersand
JavaScript toolkit. A schema definition (`props`, `session`, `derived`,
`extraProperties`) is compiled once. An instance then holds attribute values and goes
through its operations: construction from initial attributes, `set` (the write
pipeline, `previous`, change events), `get` and field reads, the lazily memoized
derived properties, `toggle`, `_verifyRequired`, `serialize` and `attributes`. The
fixture at the top of `test/full.js` and the tests below it define the behaviour
modelled here.

The project has one module per stage:

- `wrappers.dfy` (`Wrappers`): `Option` and `Result`.
- `values.dfy` (`Values`): JavaScript values and the type step of the built-in data types. `date` accepts an epoch number or its decimal string.
- `schema.dfy` (`Schema`): the compiled schema.
  - Every declaration form is normalised to one `AttrSpec`.
  - Derived properties are kept in dependency order.
  - `Affected` gives the set of derived properties a change reaches.
- `compiler.dfy` (`Compiler`): compilation of a definition.
  - Derived names that collide with declared ones are refused.
  - Dependency cycles are refused.
  - Otherwise the derived properties are ordered topologically.
- `store.dfy` (`Store`): the instance state.
  - Values and `previous`.
  - The memo cache of derived values.
  - A run counter per derived property, the observable the tests count with `ran++`.
- `derived.dfy` (`Derived`):
  - `PureValue`: the value a derived property denotes.
  - `ReadDerived`: the lazy, memoizing read.
  - What a read runs and what it leaves alone.
- `writes.dfy` (`Writes`): one write and the writes of one `set` call.
  - The checks, in order: derived name, `extraProperties` policy, type, `allowNull`, `values`, `test`.
  - The error messages.
- `notify.dfy` (`Notify`): a whole `set` call.
  - `previous` becomes a snapshot of the values and the memoized derived values.
  - Memoized values of affected derived properties are dropped.
  - Affected properties are re-evaluated in dependency order.
  - Events: one `change:<name>` per changed attribute, one per derived property that fires, then a single `change`.
- `instance.dfy` (`Instance`): construction, `get`, `previous`, `attributes`, `serialize`, `_verifyRequired` and `toggle`.

A field assignment `foo.x = v` is a `set` call with the single write `(x, v)`.
Throwing is modelled as a result value:
- a failed `set` or `toggle` returns `Failed(error, state)`;
- a failed construction returns `Err(error)`.

This is a behavioural model. Its behaviour is fixed by the fixture and assertions of
`test/full.js` and by the library's documented check order and partial application of
a bulk `set`: the writes before a refused write stay applied, and the writes after it
are not made.

Nothing documents or tests what a refused call does to events, `previous` and the
memo cache. The model makes these choices:
- A failed call announces nothing. Events are produced only at the end of a completed
  call.
- A failed call still moves the snapshot into `previous`.
- A failed call drops the memoized values its applied writes made stale. This keeps
  every memoized value equal to the value its property denotes.
- A completed call announces every attribute change before any derived property's
  change. Only the dependency order among the derived events is fixed by the library.

## Model

| member | source | states |
|---|---|---|
| Values.Coerce | test/full.js:174-195 | A value of the wrong shape for a declared type is refused. Only `date` converts: an epoch number or a string of decimal digits becomes a Date, and other strings are refused. `null` passes the type step. |
| Values.DateAcceptsEpochString | test/full.js:189-192 | The epoch as a number and as its decimal string give the same Date. |
| Schema.DeclarationFormsAgree | test/full.js:244-270 | The shorthand, array and object forms of one declaration normalise to the same specification, for props and session props alike. |
| Schema.Affected | test/full.js:398-439 | A derived property is affected by a change exactly when its dependency set, expanded through its derived dependencies, meets the changed names. |
| Schema.AffectedPropagates | test/full.js:398-439 | A change that affects a derived property also affects every property that depends on it. |
| Compiler.Compile | test/full.js:17-76 | A definition compiles to a well-formed schema. The schema holds its normalised declarations and their `test` functions. It holds one compiled entry per derived property, with that property's `fn`, its dependencies and its `cache` flag. Compilation fails on a derived name that is also declared, and otherwise exactly when the derived dependencies are cyclic. |
| Derived.PureValueFrame | test/full.js:370-396 | A derived value depends only on its expanded dependencies: changing other names leaves it unchanged. |
| Derived.ReadDerivedCorrect | test/full.js:79-90 | Reading a derived property answers its `fn` applied to its dependencies' current values, and the cache stays consistent with the values. |
| Derived.ReadCounts | test/full.js:327-368 | A read runs `fn` unless the property is cacheable and memoized. After one read of a cacheable property, a second read answers the same value and runs nothing. |
| Writes.DerivedWriteMessage | test/full.js:119-133 | A write to derived property `name` fails with the message `"name" is a derived property, it can't be set directly.` |
| Writes.Admit | test/full.js:142-172 | A write to a derived name fails. An undeclared name is dropped under `ignore`, stored as given under `allow`, and refused under `reject`. A declared name stores its validated value or fails with the validation error. |
| Writes.Validate | test/full.js:563-627 | A raw value is accepted exactly when its type step succeeds and the result conforms: of its type, `null` only with `allowNull`, in `values` if listed, and no message from `test`. The accepted value is the coerced one. |
| Writes.ValidateRefusals | test/full.js:563-627 | A representable value is refused for `null` without `allowNull` first, then for a value outside `values`, then with the `test` function's message as the error message. |
| Writes.AppliedWrites | test/full.js:315-325 | When the writes of one call all pass, each dropped write leaves its name alone and each stored write leaves its name holding the admitted value. Only written names change. |
| Writes.AppliedValuesConform | test/full.js:174-195 | Every value a call changes is not a derived name, and for a declared property it conforms to the specification. |
| Notify.Set | test/full.js:209-219 | After any call, `previous` is the snapshot of the values and memoized derived values from before it, and the `extraProperties` policy is kept. A failed call runs no derived `fn`. |
| Notify.SetAnnouncesDeclared | test/full.js:272-282 | A completed call announces `change:<name>` for a name that is not derived, ad-hoc names included, exactly when the call changed its value. The event carries the new value. |
| Notify.SetAnnouncesDerived | test/full.js:284-396 | A completed call announces `change:<name>` for a derived property exactly when the call changed one of its expanded dependencies and the property fires, with the value it now denotes. A cacheable property that was memoized fires only if that value differs from the memoized one; a non-cached one fires whenever it is affected. |
| Notify.SetAggregate | test/full.js:306-325 | A completed call announces one `change`, last, exactly when it changed some value. A call that changes nothing announces nothing. |
| Notify.SetOrdered | test/full.js:398-439 | Each name is announced at most once. Attribute events come before derived events, and derived events follow dependency order. |
| Notify.SetRuns | test/full.js:327-368 | In a completed call, every affected derived property that is cacheable or has no dependents runs exactly once. An unaffected one that is memoized or has no dependents does not run, and a memoized one stays memoized. |
| Notify.SetMemoizes | test/full.js:355-361 | After a completed call, every affected cacheable derived property is memoized again, so the next read of it runs nothing. |
| Notify.SetKeepsInv | test/full.js:327-368 | Every call keeps the instance invariant: stored values conform, derived names hold no stored value, and every memoized value equals the value its property denotes over the new values. |
| Notify.SetFails | test/full.js:563-584 | A call fails exactly when one of its writes is refused, and the error is that write's error. |
| Notify.SetKeepsPrefix | test/full.js:586-607 | A refused write stops the call with that write's error. The writes before it stay applied and the ones after it are not made. A single refused write therefore leaves the name as it was. |
| Notify.SetRefused | test/full.js:586-627 | A call whose only write is refused keeps every value and every memoized value. A property with `values` keeps its old value after `PR` is refused. |
| Notify.SetRecordsPrevious | test/full.js:209-499 | After a call, `previous` holds every attribute's value from before the call. A derived property is in `previous` only if it was memoized, with the value it denoted then; a non-cached property, or a cacheable one not yet read, has no previous value. |
| Instance.Construct | test/full.js:327-368 | A new instance has an empty cache and an empty `previous`, and no derived `fn` has run. |
| Instance.ConstructGiven | test/full.js:563-584 | A constructed instance holds every given value of a declared property as validated, `null` included where allowed. |
| Instance.ConstructDefaults | test/full.js:110-140 | A declared property that is not given holds its default as validated, or no value when it has no default. |
| Instance.ConstructKeepsInv | test/full.js:174-195 | A constructed instance satisfies the instance invariant. |
| Instance.ConstructNeverChecksRequired | test/full.js:197-207 | Construction succeeds whenever every given value and every default is accepted, with required properties missing or not. |
| Instance.Get | test/full.js:353-366 | A read changes no value, no `previous` and no policy. It only adds to the memo cache and only raises run counters. |
| Instance.GetCorrect | test/full.js:164-172 | `get` answers the stored value of any name that is not derived, ad-hoc names included, and changes nothing. For a derived name it answers the value the property denotes. |
| Instance.GetRuns | test/full.js:327-368 | Two reads of a cacheable derived property run `fn` at most once and answer the same value. Each read of a non-cached property runs `fn`. |
| Instance.PreviousAfterSet | test/full.js:209-219 | After a call, `previous(name)` answers what reading `name` answered before the call. A derived property has a previous value only if it was memoized. |
| Instance.AttributesAgreeWithGet | test/full.js:221-242 | `attributes` holds exactly the values that reads of non-derived names answer, and never a derived property. |
| Instance.Serialize | test/full.js:221-242 | `serialize` is part of `attributes`, with the same values. It never holds a session property. It holds every declared non-session property and every ad-hoc attribute that has a value. |
| Instance.SerializeOmitsSession | test/full.js:244-270 | For a compiled definition, `serialize` leaves out every name declared in `session`, in whatever form, and keeps every other attribute. |
| Instance.SessionWritesKeepSerialize | test/full.js:221-270 | A call that writes only session properties leaves `serialize` as it was, whether it completes or fails. |
| Instance.VerifyRequired | test/full.js:197-207 | `_verifyRequired` is true exactly when every required property holds a value other than `null`. |
| Instance.Toggle | test/full.js:629-640 | Toggling a name that is neither boolean nor restricted to `values` fails, with the state unchanged. |
| Instance.ToggleKeepsInv | test/full.js:629-656 | A toggle keeps the instance invariant, whether it completes or fails. |
| Instance.ToggleAdvances | test/full.js:629-649 | Toggling a property whose value is the k-th of its distinct `values` stores the next one, wrapping after the last. |
| Instance.ToggleStarts | test/full.js:629-649 | Toggling a property with `values` that holds no value stores the first value. |
| Instance.ToggleListedDone | test/full.js:629-649 | Toggling a property whose listed values all conform always completes. |
| Instance.ToggleCycles | test/full.js:629-649 | For the fixture's `state` property, a toggle moves `CA` to `WA`, `WA` to `NV` and `NV` to `CA`. |
| Instance.ToggleFlips | test/full.js:650-656 | Toggling a boolean stores `true` from no value and from `false`, and `false` from `true`. |

## Left out

- `seal` (test/full.js:92-108, 456-468): strict-mode freezing of the instance is a JavaScript runtime feature with no counterpart in the state model.
- Collections, the registry, `initialize` and inheritance through `extend` (test/full.js:684-752): these are separate components.
- Custom `dataTypes` with their own `set`, `get` and `compare` (test/full.js:501-561): only the built-in types are modelled, and equality is structural.
- The receiver of `test` and derived `fn` (test/full.js:663-682): a `test` function sees only the new value, and a derived `fn` sees a map from its dependency names to their values instead of `this`.
- Event listeners and calls made from inside them (test/full.js:470-499): events are returned as a list, and no listener runs during a call. `previous` is therefore the snapshot taken at the start of the call.
- The `unset` and `silent` options of `set`: they are not part of the modelled operations.
- Numbers are integers and Dates are integer epochs. Floating point, `NaN` and date parsing beyond decimal digit strings are not modelled.
- The exact wording of messages: only the derived-write message and `test` messages are exact. The other messages are placeholders.
- Instance.ToggleCycles: states each transition from any state separately, not the three calls in a row. Chaining them needs only the cache invariant, which `ToggleAdvances` restores after each step.
- Instance.ToggleFlips: states each transition separately, not the sequence unset→true→false→true in one statement.
- Notify.SetRuns: counts runs exactly only for properties that are cacheable or have no dependents. A non-cached property that other affected properties read runs once more per such read, so no exact count is stated for it.
- Failure semantics: what a refused call does to events, `previous` and the memo cache (see above) is a modelling choice. No source line or test shows it.
- Event layout: announcing attribute changes before derived changes (`Notify.SetOrdered`) is a modelling choice. The tests only count the events.
- Instance.VerifyRequired: a required property holding `null` counts as missing. The tests only show the missing case.
- Instance.GetCorrect, Instance.ToggleAdvances, Instance.ToggleFlips, Instance.ToggleCycles: these require the cache invariant `CacheOk`, which every constructed instance has and every call keeps (`ConstructKeepsInv`, `SetKeepsInv`).

=== FILE: compiler.dfy ===
/**
 * Compiling a schema definition (`State.extend({props, session, derived, ...})`):
 * normalising every declaration, rejecting derived names that collide with declared
 * ones, ordering the derived properties so that each follows the derived properties
 * it depends on, and rejecting dependency cycles.
 */
module Compiler {
  import opened Wrappers
  import opened Values
  import opened Schema

  /** A derived property as declared: `name: {deps, fn, cache}`; `cache` defaults to true. */
  datatype RawDerived = RawDerived(name: string, deps: seq<string>, fn: ComputeFn, cache: Option<bool>)

  /** A schema definition. Each part lists its keys in declaration order, as a
      JavaScript object does. */
  datatype Definition = Definition(
    props: seq<(string, Decl)>,
    session: seq<(string, Decl)>,
    derived: seq<RawDerived>,
    extraProperties: Policy)

  datatype CompileError = NameCollision(name: string) | DependencyCycle(names: set<string>)

  /** Object keys are distinct. */
  predicate DistinctKeys(entries: seq<(string, Decl)>) {
    forall i, j :: 0 <= i < j < |entries| ==> entries[i].0 != entries[j].0
  }

  predicate DistinctDerived(raw: seq<RawDerived>) {
    forall i, j :: 0 <= i < j < |raw| ==> raw[i].name != raw[j].name
  }

  function Keys(entries: seq<(string, Decl)>): (ks: seq<string>)
    ensures |ks| == |entries|
    ensures forall i :: 0 <= i < |ks| ==> ks[i] == entries[i].0
  {
    if |entries| == 0 then [] else Keys(entries[..|entries| - 1]) + [entries[|entries| - 1].0]
  }

  function RawNames(raw: seq<RawDerived>): set<string> {
    set i | 0 <= i < |raw| :: raw[i].name
  }

  // ---------------------------------------------------------------------------
  // Declared properties

  /** The normalised specifications of one part of the definition. */
  function DeclMap(entries: seq<(string, Decl)>, session: bool): (m: map<string, AttrSpec>)
    ensures forall n :: n in m <==> n in Keys(entries)
    ensures DistinctKeys(entries) ==>
              forall i :: 0 <= i < |entries| ==> m[entries[i].0] == Normalize(entries[i].1, session)
  {
    if |entries| == 0 then map[]
    else
      var last := entries[|entries| - 1];
      var m := DeclMap(entries[..|entries| - 1], session);
      Prefix(entries);
      m[last.0 := Normalize(last.1, session)]
  }

  /** The entries before the last: the same entries, and with distinct keys, none of
      them the last entry's key. */
  lemma Prefix(entries: seq<(string, Decl)>)
    requires |entries| > 0
    ensures var init := entries[..|entries| - 1];
      && Keys(entries) == Keys(init) + [entries[|entries| - 1].0]
      && (forall i :: 0 <= i < |init| ==> init[i] == entries[i])
      && (DistinctKeys(entries) ==>
            DistinctKeys(init) && forall i :: 0 <= i < |init| ==> init[i].0 != entries[|entries| - 1].0)
  {
  }

  /** The `test` functions declared in one part of the definition. */
  function TestMap(entries: seq<(string, Decl)>): (m: map<string, TestFn>)
    ensures forall n :: n in m ==> n in Keys(entries)
  {
    if |entries| == 0 then map[]
    else
      var last := entries[|entries| - 1];
      var m := TestMap(entries[..|entries| - 1]);
      match TestOf(last.1)
      case Some(f) => m[last.0 := f]
      case None => m - {last.0}
  }

  function Without(ks: seq<string>, drop: seq<string>): (r: seq<string>)
    ensures forall n :: n in r <==> n in ks && n !in drop
    ensures (forall i, j :: 0 <= i < j < |ks| ==> ks[i] != ks[j]) ==>
              forall i, j :: 0 <= i < j < |r| ==> r[i] != r[j]
  {
    if |ks| == 0 then []
    else if ks[0] in drop then Without(ks[1..], drop)
    else [ks[0]] + Without(ks[1..], drop)
  }

  // ---------------------------------------------------------------------------
  // Ordering the derived properties

  predicate InRange(raw: seq<RawDerived>, s: seq<nat>) {
    forall p :: 0 <= p < |s| ==> s[p] < |raw|
  }

  /** Every dependency of each listed derived property that names a derived property
      names one listed before it. */
  predicate Topological(raw: seq<RawDerived>, order: seq<nat>)
    requires InRange(raw, order)
  {
    forall p, k :: 0 <= p < |order| && 0 <= k < |raw[order[p]].deps| && raw[order[p]].deps[k] in RawNames(raw) ==>
      exists q :: 0 <= q < p && raw[order[q]].name == raw[order[p]].deps[k]
  }

  /** The member at position `p` of `group` depends on a member of `group`. */
  predicate DependsWithin(raw: seq<RawDerived>, group: seq<nat>, p: int) {
    && 0 <= p < |group|
    && group[p] < |raw|
    && exists k, q :: 0 <= k < |raw[group[p]].deps| && 0 <= q < |group| && group[q] < |raw|
                      && raw[group[q]].name == raw[group[p]].deps[k]
  }

  /** A nonempty group of derived properties each of which depends on a member of the
      group: a dependency cycle. */
  predicate Cyclic(raw: seq<RawDerived>, group: seq<nat>) {
    && |group| > 0
    && InRange(raw, group)
    && forall p :: 0 <= p < |group| ==> DependsWithin(raw, group, p)
  }

  /** Derived property `i` can be placed after `placed` once each of its dependencies
      that names a derived property names a placed one. */
  predicate Ready(raw: seq<RawDerived>, i: nat, placed: seq<nat>)
    requires i < |raw| && InRange(raw, placed)
  {
    forall k :: 0 <= k < |raw[i].deps| && raw[i].deps[k] in RawNames(raw) ==>
      exists q :: 0 <= q < |placed| && raw[placed[q]].name == raw[i].deps[k]
  }

  function FirstReady(raw: seq<RawDerived>, pending: seq<nat>, placed: seq<nat>): (r: Option<nat>)
    requires InRange(raw, pending) && InRange(raw, placed)
    ensures r.Some? ==> r.value < |pending| && Ready(raw, pending[r.value], placed)
    ensures r.None? ==> forall p :: 0 <= p < |pending| ==> !Ready(raw, pending[p], placed)
  {
    if |pending| == 0 then None
    else if Ready(raw, pending[0], placed) then Some(0)
    else
      match FirstReady(raw, pending[1..], placed)
      case Some(p) => Some(p + 1)
      case None => None
  }

  function Range(n: nat): (r: seq<nat>)
    ensures |r| == n && forall p :: 0 <= p < n ==> r[p] == p
  {
    if n == 0 then [] else Range(n - 1) + [n - 1]
  }

  lemma {:induction false} ReadyExtends(raw: seq<RawDerived>, placed: seq<nat>, i: nat)
    requires i < |raw| && InRange(raw, placed)
    requires Topological(raw, placed) && Ready(raw, i, placed)
    ensures Topological(raw, placed + [i])
  {
    var order := placed + [i];
    forall p, k | 0 <= p < |order| && 0 <= k < |raw[order[p]].deps| && raw[order[p]].deps[k] in RawNames(raw)
      ensures exists q :: 0 <= q < p && raw[order[q]].name == raw[order[p]].deps[k]
    {
      if p < |placed| {
        var q :| 0 <= q < p && raw[placed[q]].name == raw[placed[p]].deps[k];
        assert order[q] == placed[q];
      } else {
        var q :| 0 <= q < |placed| && raw[placed[q]].name == raw[i].deps[k];
        assert order[q] == placed[q];
      }
    }
  }

  /** Repeatedly places the first pending derived property whose derived dependencies
      are all placed. It succeeds with a topological order of all of them, or stops
      with the pending properties, which then form a dependency cycle. */
  function Order(raw: seq<RawDerived>, pending: seq<nat>, placed: seq<nat>): (r: Result<seq<nat>, seq<nat>>)
    requires InRange(raw, pending) && InRange(raw, placed)
    requires Topological(raw, placed)
    requires forall i :: 0 <= i < |raw| ==> i in placed || i in pending
    ensures r.Ok? ==> InRange(raw, r.value) && Topological(raw, r.value)
                      && multiset(r.value) == multiset(placed) + multiset(pending)
    ensures r.Err? ==> Cyclic(raw, r.error)
    decreases |pending|
  {
    if |pending| == 0 then Ok(placed)
    else
      match FirstReady(raw, pending, placed)
      case None =>
        StuckIsCyclic(raw, pending, placed);
        Err(pending)
      case Some(p) =>
        ReadyExtends(raw, placed, pending[p]);
        var rest := pending[..p] + pending[p + 1..];
        MoveToPlaced(raw, pending, placed, p);
        Order(raw, rest, placed + [pending[p]])
  }

  lemma MoveToPlaced(raw: seq<RawDerived>, pending: seq<nat>, placed: seq<nat>, p: nat)
    requires p < |pending|
    requires forall i :: 0 <= i < |raw| ==> i in placed || i in pending
    ensures multiset(placed + [pending[p]]) + multiset(pending[..p] + pending[p + 1..])
            == multiset(placed) + multiset(pending)
    ensures forall i :: 0 <= i < |raw| ==> i in placed + [pending[p]] || i in pending[..p] + pending[p + 1..]
    ensures InRange(raw, pending) && InRange(raw, placed) ==>
              InRange(raw, placed + [pending[p]]) && InRange(raw, pending[..p] + pending[p + 1..])
  {
    var rest := pending[..p] + pending[p + 1..];
    assert pending == pending[..p] + [pending[p]] + pending[p + 1..];
    forall i | 0 <= i < |raw| ensures i in placed + [pending[p]] || i in rest {
      if i in pending {
        var x :| 0 <= x < |pending| && pending[x] == i;
        if x < p {
          assert rest[x] == i;
        } else if x > p {
          assert rest[x - 1] == i;
        }
      }
    }
  }

  lemma StuckIsCyclic(raw: seq<RawDerived>, pending: seq<nat>, placed: seq<nat>)
    requires InRange(raw, pending) && InRange(raw, placed) && |pending| > 0
    requires forall i :: 0 <= i < |raw| ==> i in placed || i in pending
    requires forall p :: 0 <= p < |pending| ==> !Ready(raw, pending[p], placed)
    ensures Cyclic(raw, pending)
  {
    forall p | 0 <= p < |pending| ensures DependsWithin(raw, pending, p) {
      var i := pending[p];
      var k :| 0 <= k < |raw[i].deps| && raw[i].deps[k] in RawNames(raw)
               && !exists q :: 0 <= q < |placed| && raw[placed[q]].name == raw[i].deps[k];
      var j :| 0 <= j < |raw| && raw[j].name == raw[i].deps[k];
      assert forall q :: 0 <= q < |placed| ==> placed[q] != j;
      assert j in pending;
      var q :| 0 <= q < |pending| && pending[q] == j;
      assert 0 <= k < |raw[pending[p]].deps| && raw[pending[q]].name == raw[pending[p]].deps[k];
    }
  }

  function FirstMember(order: seq<nat>, group: seq<nat>): (p: nat)
    requires exists q :: 0 <= q < |order| && order[q] in group
    ensures p < |order| && order[p] in group
    ensures forall q :: 0 <= q < p ==> order[q] !in group
  {
    if order[0] in group then 0
    else
      assert exists q :: 0 <= q < |order[1..]| && order[1..][q] in group by {
        var q :| 0 <= q < |order| && order[q] in group;
        assert order[1..][q - 1] == order[q];
      }
      1 + FirstMember(order[1..], group)
  }

  /** No order of the derived properties that places every member of a cycle can be
      topological: the first member placed depends on a member placed later. */
  lemma CycleHasNoOrder(raw: seq<RawDerived>, group: seq<nat>, order: seq<nat>)
    requires DistinctDerived(raw) && Cyclic(raw, group)
    requires InRange(raw, order) && forall p :: 0 <= p < |group| ==> group[p] in order
    ensures !Topological(raw, order)
  {
    assert group[0] in order;
    var p := FirstMember(order, group);
    var g :| 0 <= g < |group| && group[g] == order[p];
    assert DependsWithin(raw, group, g);
    var k, q :| 0 <= k < |raw[group[g]].deps| && 0 <= q < |group| && group[q] < |raw|
                && raw[group[q]].name == raw[group[g]].deps[k];
    var dep := raw[order[p]].deps[k];
    assert dep in RawNames(raw);
    forall q' | 0 <= q' < p ensures raw[order[q']].name != dep {
      DistinctNamesDiffer(raw, order[q'], group[q]);
    }
    assert 0 <= p < |order| && 0 <= k < |raw[order[p]].deps| && raw[order[p]].deps[k] in RawNames(raw);
    assert !exists q' :: 0 <= q' < p && raw[order[q']].name == raw[order[p]].deps[k];
  }

  lemma SameNameSameIndex(raw: seq<RawDerived>, i: nat, j: nat)
    requires DistinctDerived(raw) && i < |raw| && j < |raw|
    ensures raw[i].name == raw[j].name ==> i == j
  {
    if i < j {
      assert raw[i].name != raw[j].name;
    } else if j < i {
      assert raw[j].name != raw[i].name;
    }
  }

  lemma DistinctNamesDiffer(raw: seq<RawDerived>, i: nat, j: nat)
    requires DistinctDerived(raw) && i < |raw| && j < |raw| && i != j
    ensures raw[i].name != raw[j].name
  {
    if i > j {
      assert raw[j].name != raw[i].name;
    }
  }

  lemma {:induction false} RangeCounts(n: nat, x: nat)
    ensures multiset(Range(n))[x] == if x < n then 1 else 0
  {
    if n > 0 {
      var r := Range(n - 1);
      var last: seq<nat> := [n - 1];
      assert Range(n) == r + last;
      assert multiset(r + last) == multiset(r) + multiset(last);
      RangeCounts(n - 1, x);
      assert multiset(last)[x] == if x == n - 1 then 1 else 0;
    }
  }

  /** A sequence in which nothing occurs twice has no repeated element. */
  lemma {:induction false} SingleCountsDistinct(s: seq<nat>)
    requires forall x :: multiset(s)[x] <= 1
    ensures forall p, q :: 0 <= p < q < |s| ==> s[p] != s[q]
  {
    forall p, q | 0 <= p < q < |s| ensures s[p] != s[q] {
      RepeatCounts(s, p, q);
    }
  }

  lemma RepeatCounts(s: seq<nat>, p: nat, q: nat)
    requires p < q < |s|
    ensures s[p] == s[q] ==> multiset(s)[s[p]] >= 2
  {
    if s[p] == s[q] {
      assert s == s[..q] + [s[q]] + s[q + 1..];
      assert s[p] in multiset(s[..q]);
    }
  }

  // ---------------------------------------------------------------------------
  // Resolving dependencies and assembling the schema

  /** The first position in `order` of the derived property called `n`. */
  function PositionOf(raw: seq<RawDerived>, order: seq<nat>, n: string): (r: Option<nat>)
    requires InRange(raw, order)
    ensures r.Some? ==> r.value < |order| && raw[order[r.value]].name == n
    ensures r.Some? ==> forall q :: 0 <= q < r.value ==> raw[order[q]].name != n
    ensures r.None? ==> forall q :: 0 <= q < |order| ==> raw[order[q]].name != n
  {
    if |order| == 0 then None
    else if raw[order[0]].name == n then Some(0)
    else
      match PositionOf(raw, order[1..], n)
      case Some(q) => Some(q + 1)
      case None => None
  }

  function Resolve(raw: seq<RawDerived>, order: seq<nat>, n: string): (d: Dep)
    requires InRange(raw, order)
    ensures d.name == n
  {
    match PositionOf(raw, order, n)
    case Some(q) => OnDerived(n, q)
    case None => OnBase(n)
  }

  function BuildOne(raw: seq<RawDerived>, order: seq<nat>, r: RawDerived): (d: DerivedSpec)
    requires InRange(raw, order)
    ensures d.name == r.name && |d.deps| == |r.deps|
    ensures forall k :: 0 <= k < |r.deps| ==> d.deps[k] == Resolve(raw, order, r.deps[k])
    ensures d.cacheable <==> r.cache != Some(false)
    ensures d.fn == r.fn
  {
    DerivedSpec(r.name, seq(|r.deps|, k requires 0 <= k < |r.deps| => Resolve(raw, order, r.deps[k])),
                r.fn, r.cache != Some(false))
  }

  function Build(raw: seq<RawDerived>, order: seq<nat>): (ds: seq<DerivedSpec>)
    requires InRange(raw, order)
    ensures |ds| == |order|
    ensures forall p :: 0 <= p < |order| ==> ds[p] == BuildOne(raw, order, raw[order[p]])
  {
    seq(|order|, p requires 0 <= p < |order| => BuildOne(raw, order, raw[order[p]]))
  }

  function FirstCollision(raw: seq<RawDerived>, attrs: map<string, AttrSpec>): (r: Option<string>)
    ensures r.Some? ==> r.value in attrs && r.value in RawNames(raw)
    ensures r.None? ==> forall i :: 0 <= i < |raw| ==> raw[i].name !in attrs
  {
    if |raw| == 0 then None
    else if raw[0].name in attrs then Some(raw[0].name)
    else
      var r := FirstCollision(raw[1..], attrs);
      assert forall i :: 1 <= i < |raw| ==> raw[i] == raw[1..][i - 1];
      r
  }

  /** The declared properties: props, then session props (a name declared in both
      takes its session declaration). */
  function Attrs(def: Definition): map<string, AttrSpec> {
    DeclMap(def.props, false) + DeclMap(def.session, true)
  }

  function Tests(def: Definition): map<string, TestFn> {
    (TestMap(def.props) - (set n | n in Keys(def.session))) + TestMap(def.session)
  }

  function DeclOrder(def: Definition): seq<string> {
    Keys(def.props) + Without(Keys(def.session), Keys(def.props))
  }

  /** A compiled derived property carries its declaration's name, its dependencies'
      names in declared order, its `fn`, and `cache` unless that is explicitly false. */
  ghost predicate CompiledFrom(d: DerivedSpec, r: RawDerived) {
    && d.name == r.name
    && d.fn == r.fn
    && |d.deps| == |r.deps|
    && (forall k :: 0 <= k < |r.deps| ==> d.deps[k].name == r.deps[k])
    && (d.cacheable <==> r.cache != Some(false))
  }

  /** Some order of all derived properties places every property after the derived
      properties it depends on. */
  ghost predicate Acyclic(raw: seq<RawDerived>) {
    exists order :: InRange(raw, order) && (forall i :: 0 <= i < |raw| ==> i in order) && Topological(raw, order)
  }

  predicate Collides(def: Definition) {
    exists i :: 0 <= i < |def.derived| && def.derived[i].name in Attrs(def)
  }

  /** `sc` is a well-formed schema holding the normalised declarations of `def`, their
      `test` functions and, one for one, its derived properties. */
  ghost predicate CompiledAs(def: Definition, sc: Schema) {
    && WF(sc) && sc.attrs == Attrs(def) && sc.tests == Tests(def) && sc.policy == def.extraProperties
    && |sc.derived| == |def.derived|
    && (forall i :: 0 <= i < |def.derived| ==> IsDerivedName(sc, def.derived[i].name))
    && (forall p, i :: 0 <= p < |sc.derived| && 0 <= i < |def.derived| && sc.derived[p].name == def.derived[i].name ==>
          CompiledFrom(sc.derived[p], def.derived[i]))
  }

  /** Compiles a definition into a schema. Fails when a derived name is also declared
      as a property, and otherwise exactly when the derived dependencies form a cycle;
      the error then names a group of derived properties each depending on another. */
  function Compile(def: Definition): (r: Result<Schema, CompileError>)
    requires DistinctKeys(def.props) && DistinctKeys(def.session) && DistinctDerived(def.derived)
    ensures r.Ok? ==> CompiledAs(def, r.value)
    ensures Collides(def) <==> r.Err? && r.error.NameCollision?
    ensures r.Err? && r.error.NameCollision? ==> r.error.name in Attrs(def) && r.error.name in RawNames(def.derived)
    ensures !Collides(def) ==> (r.Ok? <==> Acyclic(def.derived))
    ensures r.Err? && r.error.DependencyCycle? ==> r.error.names != {} && r.error.names <= RawNames(def.derived)
  {
    match FirstCollision(def.derived, Attrs(def))
    case Some(n) => Err(NameCollision(n))
    case None => Arrange(def)
  }

  /** The second stage of compilation, once no derived name collides: orders the
      derived properties, or reports a cycle among them. */
  function Arrange(def: Definition): (r: Result<Schema, CompileError>)
    requires DistinctKeys(def.props) && DistinctKeys(def.session) && DistinctDerived(def.derived)
    requires forall i :: 0 <= i < |def.derived| ==> def.derived[i].name !in Attrs(def)
    ensures r.Ok? ==> CompiledAs(def, r.value)
    ensures r.Ok? <==> Acyclic(def.derived)
    ensures r.Err? ==> r.error.DependencyCycle? && r.error.names != {} && r.error.names <= RawNames(def.derived)
  {
    var attrs := Attrs(def);
    var raw := def.derived;
    forall i | 0 <= i < |raw| ensures i in Range(|raw|) {
      assert Range(|raw|)[i] == i;
    }
    match Order(raw, Range(|raw|), [])
    case Err(group) =>
      CycleIsNotAcyclic(raw, group);
      Err(DependencyCycle(set p | 0 <= p < |group| :: raw[group[p]].name))
    case Ok(order) =>
      OrderedSchema(def, order);
      Ok(Schema(attrs, Tests(def), DeclOrder(def), Build(raw, order), def.extraProperties))
  }

  lemma CycleIsNotAcyclic(raw: seq<RawDerived>, group: seq<nat>)
    requires DistinctDerived(raw) && Cyclic(raw, group)
    ensures !Acyclic(raw)
    ensures var names := set p | 0 <= p < |group| :: raw[group[p]].name;
            names != {} && names <= RawNames(raw)
  {
    forall order | InRange(raw, order) && (forall i :: 0 <= i < |raw| ==> i in order)
      ensures !Topological(raw, order)
    {
      CycleHasNoOrder(raw, group, order);
    }
    var names := set p | 0 <= p < |group| :: raw[group[p]].name;
    assert raw[group[0]].name in names;
  }

  lemma OrderedSchema(def: Definition, order: seq<nat>)
    requires DistinctKeys(def.props) && DistinctKeys(def.session) && DistinctDerived(def.derived)
    requires forall i :: 0 <= i < |def.derived| ==> def.derived[i].name !in Attrs(def)
    requires InRange(def.derived, order) && Topological(def.derived, order)
    requires multiset(order) == multiset(Range(|def.derived|))
    ensures CompiledAs(def, Schema(Attrs(def), Tests(def), DeclOrder(def), Build(def.derived, order), def.extraProperties))
    ensures Acyclic(def.derived)
  {
    var raw := def.derived;
    OrderLength(order, Range(|raw|));
    OrderIsPermutation(raw, order);
    BuiltCompiled(def, order);
  }

  /** Building the derived properties in a complete order without repeats compiles
      the definition. */
  lemma BuiltCompiled(def: Definition, order: seq<nat>)
    requires DistinctKeys(def.props) && DistinctKeys(def.session) && DistinctDerived(def.derived)
    requires forall i :: 0 <= i < |def.derived| ==> def.derived[i].name !in Attrs(def)
    requires InRange(def.derived, order) && Topological(def.derived, order) && |order| == |def.derived|
    requires forall i :: 0 <= i < |def.derived| ==> i in order
    requires forall p, q :: 0 <= p < q < |order| ==> order[p] != order[q]
    ensures CompiledAs(def, Schema(Attrs(def), Tests(def), DeclOrder(def), Build(def.derived, order), def.extraProperties))
  {
    var sc := Schema(Attrs(def), Tests(def), DeclOrder(def), Build(def.derived, order), def.extraProperties);
    BuiltCoversAll(sc, def.derived, order);
    BuildWF(def, order);
  }

  lemma OrderLength(order: seq<nat>, all: seq<nat>)
    requires multiset(order) == multiset(all)
    ensures |order| == |all|
  {
    assert |order| == |multiset(order)| == |multiset(all)| == |all|;
  }

  lemma BuiltCoversAll(sc: Schema, raw: seq<RawDerived>, order: seq<nat>)
    requires DistinctDerived(raw) && InRange(raw, order) && sc.derived == Build(raw, order)
    requires forall i :: 0 <= i < |raw| ==> i in order
    ensures forall i :: 0 <= i < |raw| ==> IsDerivedName(sc, raw[i].name)
    ensures forall p, i :: 0 <= p < |sc.derived| && 0 <= i < |raw| && sc.derived[p].name == raw[i].name ==>
              CompiledFrom(sc.derived[p], raw[i])
  {
    forall i | 0 <= i < |raw| ensures IsDerivedName(sc, raw[i].name) {
      assert i in order;
      var p :| 0 <= p < |order| && order[p] == i;
      assert sc.derived[p].name == raw[i].name;
    }
    forall p, i | 0 <= p < |sc.derived| && 0 <= i < |raw| && sc.derived[p].name == raw[i].name
      ensures CompiledFrom(sc.derived[p], raw[i])
    {
      SameNameSameIndex(raw, order[p], i);
    }
  }

  /** A complete order holds every derived property exactly once. */
  lemma OrderIsPermutation(raw: seq<RawDerived>, order: seq<nat>)
    requires multiset(order) == multiset(Range(|raw|))
    ensures InRange(raw, order)
    ensures forall i :: 0 <= i < |raw| ==> i in order
    ensures forall p, q :: 0 <= p < q < |order| ==> order[p] != order[q]
  {
    forall x ensures multiset(order)[x] <= 1 {
      RangeCounts(|raw|, x);
    }
    forall p | 0 <= p < |order| ensures order[p] < |raw| {
      assert order[p] in multiset(order);
      RangeCounts(|raw|, order[p]);
    }
    forall i | 0 <= i < |raw| ensures i in order {
      RangeCounts(|raw|, i);
      assert i in multiset(order);
    }
    SingleCountsDistinct(order);
  }

  lemma BuildWF(def: Definition, order: seq<nat>)
    requires DistinctKeys(def.props) && DistinctKeys(def.session) && DistinctDerived(def.derived)
    requires forall i :: 0 <= i < |def.derived| ==> def.derived[i].name !in Attrs(def)
    requires InRange(def.derived, order) && Topological(def.derived, order)
    requires forall p, q :: 0 <= p < q < |order| ==> order[p] != order[q]
    ensures WF(Schema(Attrs(def), Tests(def), DeclOrder(def), Build(def.derived, order), def.extraProperties))
  {
    var sc := Schema(Attrs(def), Tests(def), DeclOrder(def), Build(def.derived, order), def.extraProperties);
    BuiltNamesDistinct(def.derived, order);
    BuiltDepsResolved(sc, def.derived, order);
    DeclPartsAgree(def);
    assert forall i :: 0 <= i < |sc.derived| ==> sc.derived[i].name !in sc.attrs by {
      forall i | 0 <= i < |sc.derived| ensures sc.derived[i].name !in sc.attrs {
        assert sc.derived[i].name == def.derived[order[i]].name;
      }
    }
  }

  /** The declaration order lists every declared name once, and only declared names
      carry a `test`. */
  lemma DeclPartsAgree(def: Definition)
    requires DistinctKeys(def.props) && DistinctKeys(def.session)
    ensures forall i, j :: 0 <= i < j < |DeclOrder(def)| ==> DeclOrder(def)[i] != DeclOrder(def)[j]
    ensures forall n :: n in Attrs(def) ==> n in DeclOrder(def)
    ensures forall i :: 0 <= i < |DeclOrder(def)| ==> DeclOrder(def)[i] in Attrs(def)
    ensures Tests(def).Keys <= Attrs(def).Keys
  {
    DeclOrderDistinct(def);
    DeclOrderCovers(def);
    TestsDeclared(def);
  }

  lemma DeclOrderCovers(def: Definition)
    ensures forall n :: n in Attrs(def) <==> n in DeclOrder(def)
  {
    var ks := Keys(def.props);
    var rest := Without(Keys(def.session), ks);
    assert DeclOrder(def) == ks + rest;
    forall n ensures n in Attrs(def) <==> n in ks + rest {
      assert n in Attrs(def) <==> n in ks || n in Keys(def.session);
    }
  }

  lemma TestsDeclared(def: Definition)
    ensures Tests(def).Keys <= Attrs(def).Keys
  {
    forall n | n in Tests(def) ensures n in Attrs(def) {
      if n in TestMap(def.session) {
        assert n in Keys(def.session);
      } else {
        assert n in TestMap(def.props);
        assert n in Keys(def.props);
      }
    }
  }

  lemma BuiltNamesDistinct(raw: seq<RawDerived>, order: seq<nat>)
    requires DistinctDerived(raw) && InRange(raw, order)
    requires forall p, q :: 0 <= p < q < |order| ==> order[p] != order[q]
    ensures forall p, q :: 0 <= p < q < |order| ==> Build(raw, order)[p].name != Build(raw, order)[q].name
  {
    forall p, q | 0 <= p < q < |order| ensures Build(raw, order)[p].name != Build(raw, order)[q].name {
      DistinctNamesDiffer(raw, order[p], order[q]);
    }
  }

  lemma BuiltDepsResolved(sc: Schema, raw: seq<RawDerived>, order: seq<nat>)
    requires InRange(raw, order) && Topological(raw, order) && sc.derived == Build(raw, order)
    ensures forall p, k :: 0 <= p < |sc.derived| && 0 <= k < |sc.derived[p].deps| ==>
              DepOk(sc, p, sc.derived[p].deps[k])
  {
    forall p, k | 0 <= p < |sc.derived| && 0 <= k < |sc.derived[p].deps|
      ensures DepOk(sc, p, sc.derived[p].deps[k])
    {
      var n := raw[order[p]].deps[k];
      match PositionOf(raw, order, n)
      case Some(q) =>
        assert n in RawNames(raw);
        var q' :| 0 <= q' < p && raw[order[q']].name == n;
      case None =>
        assert forall p' :: 0 <= p' < |sc.derived| ==> sc.derived[p'].name != n;
    }
  }

  lemma DeclOrderDistinct(def: Definition)
    requires DistinctKeys(def.props) && DistinctKeys(def.session)
    ensures forall i, j :: 0 <= i < j < |DeclOrder(def)| ==> DeclOrder(def)[i] != DeclOrder(def)[j]
  {
    var ks := Keys(def.props);
    var sk := Keys(def.session);
    assert forall i, j :: 0 <= i < j < |sk| ==> sk[i] != sk[j];
    var rest := Without(sk, ks);
    assert forall i, j :: 0 <= i < j < |rest| ==> rest[i] != rest[j];
    var all := DeclOrder(def);
    assert all == ks + rest;
    forall i, j | 0 <= i < j < |all| ensures all[i] != all[j] {
      if j < |ks| {
        assert all[i] == def.props[i].0 && all[j] == def.props[j].0;
      } else if i >= |ks| {
        assert all[i] == rest[i - |ks|] && all[j] == rest[j - |ks|];
      } else {
        assert all[j] == rest[j - |ks|];
        assert all[j] !in ks;
        assert all[i] == ks[i];
      }
    }
  }
}

=== FILE: derived.dfy ===
/**
 * Reading derived properties: the value a derived property denotes, and the lazy,
 * memoizing read that computes it on demand.
 */
module Derived {
  import opened Values
  import opened Schema
  import opened Store

  // ---------------------------------------------------------------------------
  // What a derived property denotes

  /** The value of derived property `i` over the attribute values `vals`: its `fn`
      applied to the values of its dependencies, derived dependencies evaluated the
      same way. */
  function PureValue(sc: Schema, vals: map<string, Value>, i: nat): Value
    requires WF(sc) && i < |sc.derived|
    decreases i, 1, 0
  {
    sc.derived[i].fn(PureEnv(sc, vals, i, 0, map[]))
  }

  /** `env` extended with the values of the dependencies of `i` from the `k`-th on. */
  function PureEnv(sc: Schema, vals: map<string, Value>, i: nat, k: nat, env: map<string, Value>): map<string, Value>
    requires WF(sc) && i < |sc.derived| && k <= |sc.derived[i].deps|
    decreases i, 0, |sc.derived[i].deps| - k
  {
    if k == |sc.derived[i].deps| then env
    else
      match sc.derived[i].deps[k]
      case OnBase(n) => PureEnv(sc, vals, i, k + 1, if n in vals then env[n := vals[n]] else env)
      case OnDerived(n, j) => PureEnv(sc, vals, i, k + 1, env[n := PureValue(sc, vals, j)])
  }

  /** Two value maps agree on `names`: the same names hold values, and the same ones. */
  ghost predicate AgreeOn(v1: map<string, Value>, v2: map<string, Value>, names: set<string>) {
    forall n :: n in names ==> (n in v1 <==> n in v2) && (n in v1 ==> v1[n] == v2[n])
  }

  /** A derived property's value depends only on its expanded dependency set: a write
      that touches none of those names leaves it unchanged. */
  lemma {:induction false} PureValueFrame(sc: Schema, v1: map<string, Value>, v2: map<string, Value>, i: nat)
    requires WF(sc) && i < |sc.derived| && AgreeOn(v1, v2, ExpandedDeps(sc, i))
    ensures PureValue(sc, v1, i) == PureValue(sc, v2, i)
    decreases i, 1, 0
  {
    PureEnvFrame(sc, v1, v2, i, 0, map[]);
  }

  lemma {:induction false} PureEnvFrame(sc: Schema, v1: map<string, Value>, v2: map<string, Value>, i: nat, k: nat, env: map<string, Value>)
    requires WF(sc) && i < |sc.derived| && k <= |sc.derived[i].deps|
    requires AgreeOn(v1, v2, DepsFrom(sc, i, k))
    ensures PureEnv(sc, v1, i, k, env) == PureEnv(sc, v2, i, k, env)
    decreases i, 0, |sc.derived[i].deps| - k
  {
    if k < |sc.derived[i].deps| {
      assert DepOk(sc, i, sc.derived[i].deps[k]);
      match sc.derived[i].deps[k]
      case OnBase(n) =>
        assert n in DepsFrom(sc, i, k);
        PureEnvFrame(sc, v1, v2, i, k + 1, if n in v1 then env[n := v1[n]] else env);
      case OnDerived(n, j) =>
        PureValueFrame(sc, v1, v2, j);
        PureEnvFrame(sc, v1, v2, i, k + 1, env[n := PureValue(sc, v1, j)]);
    }
  }

  // ---------------------------------------------------------------------------
  // The derived cache

  /** Every cache entry belongs to a cacheable derived property and holds the value
      that property denotes over the current values. */
  ghost predicate CacheOk(sc: Schema, s: State)
    requires WF(sc)
  {
    && (forall n :: n in s.cache ==> IsDerivedName(sc, n))
    && forall i :: 0 <= i < |sc.derived| && sc.derived[i].name in s.cache ==>
         sc.derived[i].cacheable && s.cache[sc.derived[i].name] == PureValue(sc, s.values, i)
  }

  /** A read changes nothing but the cache, to which it only adds, and the counters,
      which only grow. */
  ghost predicate ReadFrame(s: State, s': State) {
    && s'.values == s.values && s'.previous == s.previous && s'.policy == s.policy
    && (forall n :: n in s.cache ==> n in s'.cache && s'.cache[n] == s.cache[n])
    && (forall n :: Runs(s, n) <= Runs(s', n))
  }

  /** Reads derived property `i`: the memoized value when it is cacheable and cached;
      otherwise its `fn` runs, and the result is memoized iff it is cacheable. */
  function ReadDerived(sc: Schema, s: State, i: nat): (r: (State, Value))
    requires WF(sc) && i < |sc.derived|
    ensures ReadFrame(s, r.0)
    ensures sc.derived[i].cacheable ==> sc.derived[i].name in r.0.cache && r.0.cache[sc.derived[i].name] == r.1
    decreases i, 2, 0
  {
    var d := sc.derived[i];
    if d.cacheable && d.name in s.cache then (s, s.cache[d.name])
    else
      var (s1, v) := Compute(sc, s, i);
      (if d.cacheable then s1.(cache := s1.cache[d.name := v]) else s1, v)
  }

  /** Runs the `fn` of derived property `i` once, reading its dependencies first. */
  function Compute(sc: Schema, s: State, i: nat): (r: (State, Value))
    requires WF(sc) && i < |sc.derived|
    ensures ReadFrame(s, r.0)
    decreases i, 1, 0
  {
    var (s1, env) := EvalDeps(sc, s, i, 0, map[]);
    (Bump(s1, sc.derived[i].name), sc.derived[i].fn(env))
  }

  /** Reads the dependencies of `i` from the `k`-th on into `env`. */
  function EvalDeps(sc: Schema, s: State, i: nat, k: nat, env: map<string, Value>): (r: (State, map<string, Value>))
    requires WF(sc) && i < |sc.derived| && k <= |sc.derived[i].deps|
    ensures ReadFrame(s, r.0)
    decreases i, 0, |sc.derived[i].deps| - k
  {
    if k == |sc.derived[i].deps| then (s, env)
    else
      match sc.derived[i].deps[k]
      case OnBase(n) => EvalDeps(sc, s, i, k + 1, if n in s.values then env[n := s.values[n]] else env)
      case OnDerived(n, j) =>
        var (s1, v) := ReadDerived(sc, s, j);
        EvalDeps(sc, s1, i, k + 1, env[n := v])
  }

  lemma NamesDistinct(sc: Schema, i: nat, j: nat)
    requires WF(sc) && i < |sc.derived| && j < |sc.derived|
    ensures sc.derived[i].name == sc.derived[j].name ==> i == j
  {
    if i < j {
      assert sc.derived[i].name != sc.derived[j].name;
    } else if j < i {
      assert sc.derived[j].name != sc.derived[i].name;
    }
  }

  /** Memoizing a derived property's denoted value keeps the cache consistent. */
  lemma StoreKeepsCacheOk(sc: Schema, s: State, i: nat)
    requires WF(sc) && i < |sc.derived| && sc.derived[i].cacheable && CacheOk(sc, s)
    ensures CacheOk(sc, s.(cache := s.cache[sc.derived[i].name := PureValue(sc, s.values, i)]))
  {
    var s' := s.(cache := s.cache[sc.derived[i].name := PureValue(sc, s.values, i)]);
    forall m | 0 <= m < |sc.derived| && sc.derived[m].name in s'.cache
      ensures sc.derived[m].cacheable && s'.cache[sc.derived[m].name] == PureValue(sc, s'.values, m)
    {
      NamesDistinct(sc, i, m);
    }
  }

  /** A read returns the value the derived property denotes over the current values,
      and keeps every cache entry consistent: memoization is invisible to readers. */
  lemma {:induction false} ReadDerivedCorrect(sc: Schema, s: State, i: nat)
    requires WF(sc) && i < |sc.derived| && CacheOk(sc, s)
    ensures ReadDerived(sc, s, i).1 == PureValue(sc, s.values, i)
    ensures CacheOk(sc, ReadDerived(sc, s, i).0)
    decreases i, 2, 0
  {
    var d := sc.derived[i];
    if !(d.cacheable && d.name in s.cache) {
      ComputeCorrect(sc, s, i);
      if d.cacheable {
        StoreKeepsCacheOk(sc, Compute(sc, s, i).0, i);
      }
    }
  }

  lemma {:induction false} ComputeCorrect(sc: Schema, s: State, i: nat)
    requires WF(sc) && i < |sc.derived| && CacheOk(sc, s)
    ensures Compute(sc, s, i).1 == PureValue(sc, s.values, i)
    ensures CacheOk(sc, Compute(sc, s, i).0)
    decreases i, 1, 0
  {
    EvalDepsCorrect(sc, s, i, 0, map[]);
  }

  lemma {:induction false} EvalDepsCorrect(sc: Schema, s: State, i: nat, k: nat, env: map<string, Value>)
    requires WF(sc) && i < |sc.derived| && k <= |sc.derived[i].deps| && CacheOk(sc, s)
    ensures EvalDeps(sc, s, i, k, env).1 == PureEnv(sc, s.values, i, k, env)
    ensures CacheOk(sc, EvalDeps(sc, s, i, k, env).0)
    decreases i, 0, |sc.derived[i].deps| - k
  {
    if k < |sc.derived[i].deps| {
      assert DepOk(sc, i, sc.derived[i].deps[k]);
      match sc.derived[i].deps[k]
      case OnBase(n) =>
        EvalDepsCorrect(sc, s, i, k + 1, if n in s.values then env[n := s.values[n]] else env);
      case OnDerived(n, j) =>
        ReadDerivedCorrect(sc, s, j);
        var (s1, v) := ReadDerived(sc, s, j);
        EvalDepsCorrect(sc, s1, i, k + 1, env[n := v]);
    }
  }

  // ---------------------------------------------------------------------------
  // What a read touches

  /** The derived properties a read of `j` may run: `j` and, transitively, the
      derived properties it depends on. */
  function Closure(sc: Schema, j: nat): set<nat>
    requires WF(sc) && j < |sc.derived|
    decreases j, 1, 0
  {
    {j} + ClosureFrom(sc, j, 0)
  }

  function ClosureFrom(sc: Schema, j: nat, k: nat): set<nat>
    requires WF(sc) && j < |sc.derived| && k <= |sc.derived[j].deps|
    decreases j, 0, |sc.derived[j].deps| - k
  {
    if k == |sc.derived[j].deps| then {}
    else
      (match sc.derived[j].deps[k]
       case OnBase(_) => {}
       case OnDerived(_, m) => Closure(sc, m))
      + ClosureFrom(sc, j, k + 1)
  }

  /** Derived property `i` is depended on by some derived property. */
  ghost predicate HasDependent(sc: Schema, i: nat) {
    exists m, k :: 0 <= m < |sc.derived| && 0 <= k < |sc.derived[m].deps|
      && sc.derived[m].deps[k].OnDerived? && sc.derived[m].deps[k].index == i
  }

  /** Only earlier properties are read on the way to `j`. */
  lemma {:induction false} ClosureBelow(sc: Schema, j: nat)
    requires WF(sc) && j < |sc.derived|
    ensures forall m :: m in Closure(sc, j) ==> m <= j
    decreases j, 1, 0
  {
    ClosureFromBelow(sc, j, 0);
  }

  lemma {:induction false} ClosureFromBelow(sc: Schema, j: nat, k: nat)
    requires WF(sc) && j < |sc.derived| && k <= |sc.derived[j].deps|
    ensures forall m :: m in ClosureFrom(sc, j, k) ==> m < j
    decreases j, 0, |sc.derived[j].deps| - k
  {
    if k < |sc.derived[j].deps| {
      ClosureFromBelow(sc, j, k + 1);
      assert DepOk(sc, j, sc.derived[j].deps[k]);
      match sc.derived[j].deps[k]
      case OnBase(_) =>
      case OnDerived(_, m) =>
        ClosureBelow(sc, m);
    }
  }

  /** A derived property nobody depends on is read only by reading it directly. */
  lemma {:induction false} NoDependentOutside(sc: Schema, i: nat, j: nat)
    requires WF(sc) && j < |sc.derived| && !HasDependent(sc, i) && i != j
    ensures i !in Closure(sc, j)
    decreases j, 1, 0
  {
    NoDependentOutsideFrom(sc, i, j, 0);
  }

  lemma {:induction false} NoDependentOutsideFrom(sc: Schema, i: nat, j: nat, k: nat)
    requires WF(sc) && j < |sc.derived| && k <= |sc.derived[j].deps| && !HasDependent(sc, i)
    ensures i !in ClosureFrom(sc, j, k)
    decreases j, 0, |sc.derived[j].deps| - k
  {
    if k < |sc.derived[j].deps| {
      NoDependentOutsideFrom(sc, i, j, k + 1);
      assert DepOk(sc, j, sc.derived[j].deps[k]);
      match sc.derived[j].deps[k]
      case OnBase(_) =>
      case OnDerived(_, m) =>
        NoDependentOutside(sc, i, m);
    }
  }

  /** Derived property `i` neither ran nor entered or left the cache between `s` and `s'`. */
  ghost predicate Untouched(sc: Schema, s: State, s': State, i: nat)
    requires WF(sc) && i < |sc.derived|
  {
    Runs(s', sc.derived[i].name) == Runs(s, sc.derived[i].name)
    && (sc.derived[i].name in s'.cache <==> sc.derived[i].name in s.cache)
  }

  /** `i` is safe from a read of `j`: not reachable from it, or memoized already. */
  ghost predicate Shielded(sc: Schema, s: State, i: nat, j: nat)
    requires WF(sc) && i < |sc.derived| && j < |sc.derived|
  {
    i !in Closure(sc, j) || (sc.derived[i].cacheable && sc.derived[i].name in s.cache)
  }

  /** Reading `j` leaves every derived property it cannot reach, and every memoized one,
      alone. */
  lemma {:induction false} ReadLeaves(sc: Schema, s: State, j: nat, i: nat)
    requires WF(sc) && j < |sc.derived| && i < |sc.derived| && Shielded(sc, s, i, j)
    ensures Untouched(sc, s, ReadDerived(sc, s, j).0, i)
    decreases j, 2, 0
  {
    var d := sc.derived[j];
    if !(d.cacheable && d.name in s.cache) {
      NamesDistinct(sc, i, j);
      ComputeLeaves(sc, s, j, i);
    }
  }

  lemma {:induction false} ComputeLeaves(sc: Schema, s: State, j: nat, i: nat)
    requires WF(sc) && j < |sc.derived| && i < |sc.derived| && i != j
    requires i !in ClosureFrom(sc, j, 0) || (sc.derived[i].cacheable && sc.derived[i].name in s.cache)
    ensures Untouched(sc, s, Compute(sc, s, j).0, i)
    decreases j, 1, 0
  {
    NamesDistinct(sc, i, j);
    EvalDepsLeaves(sc, s, j, 0, map[], i);
  }

  lemma {:induction false} EvalDepsLeaves(sc: Schema, s: State, j: nat, k: nat, env: map<string, Value>, i: nat)
    requires WF(sc) && j < |sc.derived| && k <= |sc.derived[j].deps| && i < |sc.derived|
    requires i !in ClosureFrom(sc, j, k) || (sc.derived[i].cacheable && sc.derived[i].name in s.cache)
    ensures Untouched(sc, s, EvalDeps(sc, s, j, k, env).0, i)
    decreases j, 0, |sc.derived[j].deps| - k
  {
    if k < |sc.derived[j].deps| {
      assert DepOk(sc, j, sc.derived[j].deps[k]);
      match sc.derived[j].deps[k]
      case OnBase(n) =>
        EvalDepsLeaves(sc, s, j, k + 1, if n in s.values then env[n := s.values[n]] else env, i);
      case OnDerived(n, m) =>
        ReadLeaves(sc, s, m, i);
        var (s1, v) := ReadDerived(sc, s, m);
        EvalDepsLeaves(sc, s1, j, k + 1, env[n := v], i);
    }
  }

  /** A read of `i` runs its `fn` exactly once unless a memoized value exists, in which
      case it runs nothing; a cacheable property read twice runs once and answers the
      same. */
  lemma ReadCounts(sc: Schema, s: State, i: nat)
    requires WF(sc) && i < |sc.derived|
    ensures var name := sc.derived[i].name;
      Runs(ReadDerived(sc, s, i).0, name)
      == Runs(s, name) + (if sc.derived[i].cacheable && name in s.cache then 0 else 1)
    ensures sc.derived[i].cacheable ==>
      var (s1, v) := ReadDerived(sc, s, i);
      ReadDerived(sc, s1, i) == (s1, v)
  {
    ClosureFromBelow(sc, i, 0);
    EvalDepsLeaves(sc, s, i, 0, map[], i);
  }
}

=== FILE: instance.dfy ===
/**
 * The operations of one instance: construction, `get`, `previous`, `attributes`,
 * `serialize`, `_verifyRequired` and `toggle`, all over the state of `Store` and the
 * `set` pass of `Notify`.
 */
module Instance {
  import opened Wrappers
  import opened Values
  import opened Schema
  import opened Store
  import opened Derived
  import opened Writes
  import opened Notify
  import Compiler

  // ---------------------------------------------------------------------------
  // Construction

  /** The defaults of the declared names in `names` that `given` does not write, in
      declaration order. */
  function DefaultWrites(sc: Schema, names: seq<string>, given: Writes): (ws: Writes)
    requires forall k :: 0 <= k < |names| ==> names[k] in sc.attrs
    ensures forall k :: 0 <= k < |ws| ==>
      ws[k].0 in names && ws[k].0 in sc.attrs && !Written(given, ws[k].0) && sc.attrs[ws[k].0].default == Some(ws[k].1)
    ensures forall k :: 0 <= k < |names| && !Written(given, names[k]) && sc.attrs[names[k]].default.Some? ==>
      Written(ws, names[k])
  {
    if names == [] then []
    else
      var n := names[0];
      var rest := DefaultWrites(sc, names[1..], given);
      assert forall k :: 1 <= k < |names| ==> names[k] == names[1..][k - 1];
      if !Written(given, n) && sc.attrs[n].default.Some? then
        assert Written([(n, sc.attrs[n].default.value)] + rest, n) by {
          assert ([(n, sc.attrs[n].default.value)] + rest)[0].0 == n;
        }
        assert forall m :: Written(rest, m) ==> Written([(n, sc.attrs[n].default.value)] + rest, m) by {
          forall m | Written(rest, m) ensures Written([(n, sc.attrs[n].default.value)] + rest, m) {
            var k :| 0 <= k < |rest| && rest[k].0 == m;
            assert ([(n, sc.attrs[n].default.value)] + rest)[k + 1].0 == m;
          }
        }
        [(n, sc.attrs[n].default.value)] + rest
      else rest
  }

  /** The writes of the constructor: the given attributes, then the defaults of the
      declared properties not given. */
  function InitialWrites(sc: Schema, init: Writes): Writes
    requires WF(sc)
  {
    init + DefaultWrites(sc, sc.declOrder, init)
  }

  /** The initial writes name every attribute once. */
  lemma InitialWritesDistinct(sc: Schema, init: Writes)
    requires WF(sc) && DistinctNames(init)
    ensures DistinctNames(InitialWrites(sc, init))
  {
    var d := DefaultWrites(sc, sc.declOrder, init);
    DefaultWritesDistinct(sc, sc.declOrder, init);
    var ws := init + d;
    forall i, j | 0 <= i < j < |ws| ensures ws[i].0 != ws[j].0 {
      if j >= |init| && i < |init| {
        assert ws[j] == d[j - |init|];
        assert !Written(init, ws[j].0);
        assert init[i].0 == ws[i].0;
      } else if i >= |init| {
        assert ws[i] == d[i - |init|] && ws[j] == d[j - |init|];
      }
    }
  }

  lemma {:induction false} DefaultWritesDistinct(sc: Schema, names: seq<string>, given: Writes)
    requires forall k :: 0 <= k < |names| ==> names[k] in sc.attrs
    requires forall i, j :: 0 <= i < j < |names| ==> names[i] != names[j]
    ensures DistinctNames(DefaultWrites(sc, names, given))
    decreases |names|
  {
    if names != [] {
      assert forall k :: 1 <= k < |names| ==> names[k] == names[1..][k - 1];
      DefaultWritesDistinct(sc, names[1..], given);
      var rest := DefaultWrites(sc, names[1..], given);
      assert forall k :: 0 <= k < |rest| ==> rest[k].0 in names[1..];
      assert names[0] !in names[1..];
    }
  }

  /** `new Model(init)`: the given attributes and the defaults go through the write
      path from an empty store, without events; the cache, the counters and
      `previous` start empty, so no derived function has run. A refused value fails
      construction; a required property without a value does not. */
  function Construct(sc: Schema, init: Writes): (r: Result<State, Error>)
    requires WF(sc) && DistinctNames(init)
    ensures r.Ok? ==> r.value.cache == map[] && r.value.previous == map[] && r.value.policy == sc.policy
    ensures r.Ok? ==> forall n :: Runs(r.value, n) == 0
  {
    InitialWritesDistinct(sc, init);
    var ap := ApplyWrites(sc, sc.policy, map[], InitialWrites(sc, init));
    match ap.failure
    case Some(e) => Err(e)
    case None => Ok(State(ap.values, map[], map[], map[], sc.policy))
  }

  /** The writes of a successful construction were all admitted. */
  lemma ConstructAdmitted(sc: Schema, init: Writes)
    requires WF(sc) && DistinctNames(init)
    ensures DistinctNames(InitialWrites(sc, init))
    ensures var ws := InitialWrites(sc, init);
      var ap := ApplyWrites(sc, sc.policy, map[], ws);
      Construct(sc, init).Ok? ==>
        && ap.failure.None? && Construct(sc, init).value.values == ap.values
        && (forall k :: 0 <= k < |ws| && ws[k].0 in sc.attrs ==>
              Validate(sc, ws[k].0, ws[k].1).Ok?
              && ws[k].0 in ap.values && ap.values[ws[k].0] == Validate(sc, ws[k].0, ws[k].1).value)
  {
    InitialWritesDistinct(sc, init);
    var ws := InitialWrites(sc, init);
    AppliedWrites(sc, sc.policy, map[], ws);
  }

  /** A constructed instance holds every admitted given value of a declared property. */
  lemma ConstructGiven(sc: Schema, init: Writes)
    requires WF(sc) && DistinctNames(init)
    ensures var r := Construct(sc, init);
      r.Ok? ==>
        forall k :: 0 <= k < |init| && init[k].0 in sc.attrs ==>
          Validate(sc, init[k].0, init[k].1).Ok?
          && init[k].0 in r.value.values && r.value.values[init[k].0] == Validate(sc, init[k].0, init[k].1).value
  {
    ConstructAdmitted(sc, init);
    var ws := InitialWrites(sc, init);
    assert forall k :: 0 <= k < |init| ==> ws[k] == init[k];
  }

  /** A declared property not given holds its default as admitted, or nothing when it
      has no default. */
  lemma ConstructDefaults(sc: Schema, init: Writes)
    requires WF(sc) && DistinctNames(init)
    ensures var r := Construct(sc, init);
      r.Ok? ==>
        && (forall n :: n in sc.attrs && !Written(init, n) && sc.attrs[n].default.Some? ==>
              Validate(sc, n, sc.attrs[n].default.value).Ok?
              && n in r.value.values && r.value.values[n] == Validate(sc, n, sc.attrs[n].default.value).value)
        && (forall n :: n in sc.attrs && !Written(init, n) && sc.attrs[n].default.None? ==> n !in r.value.values)
  {
    ConstructAdmitted(sc, init);
    var ws := InitialWrites(sc, init);
    var d := DefaultWrites(sc, sc.declOrder, init);
    assert forall k :: 0 <= k < |d| ==> ws[|init| + k] == d[k];
    forall n | n in sc.attrs && !Written(init, n) && sc.attrs[n].default.Some?
      ensures Written(d, n)
    {
      var i :| 0 <= i < |sc.declOrder| && sc.declOrder[i] == n;
    }
    forall n | n in sc.attrs && !Written(init, n) && sc.attrs[n].default.None?
      ensures !Written(ws, n)
    {
      assert forall k :: 0 <= k < |init| ==> ws[k] == init[k];
    }
  }

  /** A constructed instance satisfies the instance invariant. */
  lemma ConstructKeepsInv(sc: Schema, init: Writes)
    requires WF(sc) && DistinctNames(init)
    ensures var r := Construct(sc, init);
      r.Ok? ==> Inv(sc, r.value)
  {
    InitialWritesDistinct(sc, init);
    AppliedStoreOk(sc, sc.policy, map[], InitialWrites(sc, init));
  }

  /** Construction fails only on a refused value: when every given value and every
      default is admitted, it succeeds, whether or not required properties are given. */
  lemma ConstructNeverChecksRequired(sc: Schema, init: Writes)
    requires WF(sc) && DistinctNames(init)
    requires forall k :: 0 <= k < |init| ==> Admit(sc, sc.policy, init[k].0, init[k].1).Ok?
    requires forall n :: n in sc.attrs && sc.attrs[n].default.Some? ==> Validate(sc, n, sc.attrs[n].default.value).Ok?
    ensures Construct(sc, init).Ok?
  {
    InitialWritesDistinct(sc, init);
    var ws := InitialWrites(sc, init);
    var d := DefaultWrites(sc, sc.declOrder, init);
    FailureFromWrite(sc, sc.policy, map[], ws);
    forall k | 0 <= k < |ws| ensures Admit(sc, sc.policy, ws[k].0, ws[k].1).Ok? {
      if k >= |init| {
        assert ws[k] == d[k - |init|];
      } else {
        assert ws[k] == init[k];
      }
    }
  }

  // ---------------------------------------------------------------------------
  // Reading

  /** `get(name)` and field reads: a derived property is read through its cache, any
      other name answers the stored value, or nothing. */
  function Get(sc: Schema, s: State, name: string): (r: (State, Option<Value>))
    requires WF(sc)
    ensures ReadFrame(s, r.0)
  {
    match FindDerived(sc.derived, name)
    case Some(i) =>
      var c := ReadDerived(sc, s, i);
      (c.0, Some(c.1))
    case None => (s, if name in s.values then Some(s.values[name]) else None)
  }

  /** A read answers the value a derived property denotes over the current values, or
      the stored value of any other name, and keeps the cache consistent. */
  lemma GetCorrect(sc: Schema, s: State, name: string)
    requires WF(sc) && CacheOk(sc, s)
    ensures var (s', v) := Get(sc, s, name);
      && CacheOk(sc, s')
      && (forall i :: 0 <= i < |sc.derived| && sc.derived[i].name == name ==> v == Some(PureValue(sc, s.values, i)))
      && (!IsDerivedName(sc, name) ==> s' == s && v == (if name in s.values then Some(s.values[name]) else None))
  {
    match FindDerived(sc.derived, name)
    case Some(i) =>
      ReadDerivedCorrect(sc, s, i);
      forall j | 0 <= j < |sc.derived| && sc.derived[j].name == name ensures j == i {
        NamesDistinct(sc, i, j);
      }
    case None =>
  }

  /** A cacheable derived property runs its function on the first read only: a second
      read answers the same value and runs nothing. A property that is not cacheable
      runs on every read. */
  lemma GetRuns(sc: Schema, s: State, i: nat)
    requires WF(sc) && i < |sc.derived|
    ensures var name := sc.derived[i].name;
      var (s1, v1) := Get(sc, s, name);
      var (s2, v2) := Get(sc, s1, name);
      && Runs(s1, name) == Runs(s, name) + (if sc.derived[i].cacheable && name in s.cache then 0 else 1)
      && (sc.derived[i].cacheable ==> s2 == s1 && v2 == v1)
      && (!sc.derived[i].cacheable ==> Runs(s2, name) == Runs(s1, name) + 1)
  {
    var name := sc.derived[i].name;
    assert FindDerived(sc.derived, name) == Some(i) by {
      var f := FindDerived(sc.derived, name);
      if f.Some? {
        NamesDistinct(sc, i, f.value);
      }
    }
    ReadCounts(sc, s, i);
    ReadCounts(sc, ReadDerived(sc, s, i).0, i);
  }

  /** `previous(name)`: the value `name` had before the most recent `set` call. */
  function Previous(s: State, name: string): Option<Value> {
    if name in s.previous then Some(s.previous[name]) else None
  }

  /** After a call, `previous(name)` answers what reading `name` answered before it. For
      a derived property that holds only if it was memoized; otherwise it has no
      previous value. */
  lemma PreviousAfterSet(sc: Schema, s: State, ws: Writes, name: string)
    requires WF(sc) && DistinctNames(ws) && Inv(sc, s)
    ensures var p := Previous(Set(sc, s, ws).state, name);
      && (!IsDerivedName(sc, name) ==> p == Get(sc, s, name).1)
      && (IsDerivedName(sc, name) ==> (p.Some? <==> name in s.cache) && (p.Some? ==> p == Get(sc, s, name).1))
  {
    SetRecordsPrevious(sc, s, ws);
    GetCorrect(sc, s, name);
  }

  /** `attributes`: every stored value, session and ad-hoc attributes included. */
  function Attributes(s: State): map<string, Value> {
    s.values
  }

  /** `attributes` holds exactly what reads of the names that are not derived answer,
      and never a derived property. */
  lemma AttributesAgreeWithGet(sc: Schema, s: State, name: string)
    requires WF(sc) && Inv(sc, s)
    ensures name in Attributes(s) ==> !IsDerivedName(sc, name) && Get(sc, s, name).1 == Some(Attributes(s)[name])
    ensures !IsDerivedName(sc, name) && name !in Attributes(s) ==> Get(sc, s, name).1 == None
  {
    GetCorrect(sc, s, name);
  }

  /** `serialize()`: the attributes without the session properties. */
  function Serialize(sc: Schema, s: State): (m: map<string, Value>)
    ensures forall n :: n in m ==> n in Attributes(s) && m[n] == Attributes(s)[n]
    ensures forall n :: n in sc.attrs && sc.attrs[n].session ==> n !in m
    ensures forall n :: n in sc.attrs && !sc.attrs[n].session && n in Attributes(s) ==> n in m
    ensures forall n :: n !in sc.attrs && n in Attributes(s) ==> n in m
  {
    map n | n in s.values && !IsSession(sc, n) :: s.values[n]
  }

  /** A call that writes only session properties leaves `serialize()` as it was,
      whether it completes or fails. */
  lemma SessionWritesKeepSerialize(sc: Schema, s: State, ws: Writes)
    requires WF(sc) && DistinctNames(ws)
    requires forall k :: 0 <= k < |ws| ==> ws[k].0 in sc.attrs && sc.attrs[ws[k].0].session
    ensures Serialize(sc, Set(sc, s, ws).state) == Serialize(sc, s)
  {
    var after := Set(sc, s, ws).state.values;
    assert after == ApplyWrites(sc, s.policy, s.values, ws).values;
    forall n | !IsSession(sc, n) ensures (n in after <==> n in s.values) && (n in s.values ==> after[n] == s.values[n]) {
      assert !Written(ws, n);
    }
  }

  /** Every entry of a part of the definition compiles to a specification marked as
      session exactly when the part is `session`, whichever form declares it. */
  lemma DeclMapSession(entries: seq<(string, Decl)>, session: bool, n: string)
    requires Compiler.DistinctKeys(entries) && n in Compiler.DeclMap(entries, session)
    ensures Compiler.DeclMap(entries, session)[n].session == session
  {
    var i :| 0 <= i < |entries| && Compiler.Keys(entries)[i] == n;
    assert entries[i].0 == n;
  }

  /** For a compiled definition, `serialize()` leaves out every name declared in
      `session` and keeps every other attribute with its value, whatever form the
      declarations take. */
  lemma SerializeOmitsSession(def: Compiler.Definition, s: State)
    requires Compiler.DistinctKeys(def.props) && Compiler.DistinctKeys(def.session) && Compiler.DistinctDerived(def.derived)
    requires Compiler.Compile(def).Ok?
    ensures var sc := Compiler.Compile(def).value;
      && (forall n :: n in Compiler.Keys(def.session) ==> n !in Serialize(sc, s))
      && (forall n :: n in s.values && n !in Compiler.Keys(def.session) ==>
            n in Serialize(sc, s) && Serialize(sc, s)[n] == s.values[n])
  {
    var sc := Compiler.Compile(def).value;
    forall n | n in Compiler.Keys(def.session) ensures IsSession(sc, n) {
      DeclMapSession(def.session, true, n);
    }
    forall n | n in s.values && n !in Compiler.Keys(def.session) ensures !IsSession(sc, n) {
      if n in Compiler.DeclMap(def.props, false) {
        DeclMapSession(def.props, false, n);
      }
    }
  }

  /** `_verifyRequired()`: whether every required property holds a value other than
      `null`. */
  method VerifyRequired(sc: Schema, s: State) returns (ok: bool)
    requires WF(sc)
    ensures ok <==> forall n :: n in sc.attrs && sc.attrs[n].required ==> n in s.values && s.values[n] != Null
  {
    ok := true;
    var k := 0;
    while k < |sc.declOrder|
      invariant 0 <= k <= |sc.declOrder|
      invariant ok <==> forall j :: 0 <= j < k && sc.attrs[sc.declOrder[j]].required ==>
                          sc.declOrder[j] in s.values && s.values[sc.declOrder[j]] != Null
    {
      var n := sc.declOrder[k];
      if sc.attrs[n].required && (n !in s.values || s.values[n] == Null) {
        ok := false;
      }
      k := k + 1;
    }
    assert forall n :: n in sc.attrs ==> exists j :: 0 <= j < |sc.declOrder| && sc.declOrder[j] == n;
  }

  // ---------------------------------------------------------------------------
  // Toggle

  /** JavaScript truthiness of an attribute's value (`undefined` when absent). */
  predicate Truthy(v: Option<Value>) {
    match v
    case None => false
    case Some(Null) => false
    case Some(Bool(b)) => b
    case Some(Str(t)) => t != ""
    case Some(Num(n)) => n != 0
    case Some(_) => true
  }

  /** The first position of `v` in `vs`, or -1. */
  function IndexOf(vs: seq<Value>, v: Option<Value>): (r: int)
    ensures -1 <= r < |vs|
    ensures r >= 0 ==> v == Some(vs[r]) && forall k :: 0 <= k < r ==> Some(vs[k]) != v
    ensures r == -1 ==> forall k :: 0 <= k < |vs| ==> Some(vs[k]) != v
  {
    if vs == [] then -1
    else if Some(vs[0]) == v then 0
    else
      var r := IndexOf(vs[1..], v);
      if r == -1 then -1 else r + 1
  }

  /** The value after `v` in `vs`, wrapping to the first after the last; the first
      when `v` is not listed. */
  function NextValue(vs: seq<Value>, v: Option<Value>): Value
    requires |vs| > 0
  {
    var i := IndexOf(vs, v) + 1;
    if i > |vs| - 1 then vs[0] else vs[i]
  }

  /** `toggle(name)`: a boolean property is set to the negation of its value's
      truthiness; a property with `values` is set to the next listed value; any other
      name fails with the state unchanged. An empty `values` list has no next value,
      and the write of `undefined` fails as a value outside the list. */
  function Toggle(sc: Schema, s: State, name: string): (o: SetOutcome)
    requires WF(sc)
    ensures name !in sc.attrs || (sc.attrs[name].typeName != TBoolean && sc.attrs[name].values.None?) ==>
      o == Failed(NotToggleable(name), s)
  {
    var current := if name in s.values then Some(s.values[name]) else None;
    if name !in sc.attrs then Failed(NotToggleable(name), s)
    else if sc.attrs[name].typeName == TBoolean then
      Set(sc, s, [(name, Bool(!Truthy(current)))])
    else if sc.attrs[name].values.Some? then
      var vs := sc.attrs[name].values.value;
      if |vs| == 0 then Failed(NotInValues(name), s.(previous := Snapshot(s)))
      else Set(sc, s, [(name, NextValue(vs, current))])
    else Failed(NotToggleable(name), s)
  }

  /** A toggle keeps the instance invariant, whether it completes or fails. */
  lemma ToggleKeepsInv(sc: Schema, s: State, name: string)
    requires WF(sc) && Inv(sc, s)
    ensures Inv(sc, Toggle(sc, s, name).state)
  {
    if name in sc.attrs && (sc.attrs[name].typeName == TBoolean || sc.attrs[name].values.Some?) {
      var current := if name in s.values then Some(s.values[name]) else None;
      if sc.attrs[name].typeName == TBoolean {
        SetKeepsInv(sc, s, [(name, Bool(!Truthy(current)))]);
      } else if |sc.attrs[name].values.value| > 0 {
        SetKeepsInv(sc, s, [(name, NextValue(sc.attrs[name].values.value, current))]);
      } else {
        var s' := s.(previous := Snapshot(s));
        forall i | 0 <= i < |sc.derived| && sc.derived[i].name in s'.previous ensures sc.derived[i].cacheable {
          assert sc.derived[i].name !in s.values;
        }
      }
    }
  }

  /** A single write of a conforming value to a declared property completes and stores
      exactly that value. */
  lemma SetConforming(sc: Schema, s: State, name: string, v: Value)
    requires WF(sc) && CacheOk(sc, s) && name in sc.attrs && Conforms(sc, name, v)
    ensures Set(sc, s, [(name, v)]).Done?
    ensures Set(sc, s, [(name, v)]).state.values == s.values[name := v]
    ensures CacheOk(sc, Set(sc, s, [(name, v)]).state)
  {
    ValidateAcceptsConforming(sc, name, v);
    assert !IsDerivedName(sc, name);
    var ws := [(name, v)];
    assert ws[1..] == [];
    assert ApplyWrites(sc, s.policy, s.values, ws).values == s.values[name := v];
    SetShape(sc, s, ws);
  }

  /** `vs` lists no value twice. */
  predicate DistinctValues(vs: seq<Value>) {
    forall i, j :: 0 <= i < j < |vs| ==> vs[i] != vs[j]
  }

  /** In a list of distinct values, the value after the `k`-th is the next one,
      wrapping after the last. */
  lemma NextValueAdvances(vs: seq<Value>, k: nat)
    requires DistinctValues(vs) && k < |vs|
    ensures NextValue(vs, Some(vs[k])) == vs[(k + 1) % |vs|]
  {
    var r := IndexOf(vs, Some(vs[k]));
    assert r != -1 by {
      assert Some(vs[k]) == Some(vs[k]);
    }
    SamePosition(vs, r, k);
    if k + 1 < |vs| {
      assert (k + 1) % |vs| == k + 1;
    } else {
      assert (k + 1) % |vs| == 0;
    }
  }

  /** In a list of distinct values, equal entries are at the same position. */
  lemma SamePosition(vs: seq<Value>, p: nat, q: nat)
    requires DistinctValues(vs) && p < |vs| && q < |vs| && vs[p] == vs[q]
    ensures p == q
  {
  }

  /** Toggling a property with a non-empty `values` list writes the next value. */
  lemma ToggleWritesNext(sc: Schema, s: State, name: string)
    requires WF(sc) && name in sc.attrs && sc.attrs[name].typeName != TBoolean
    requires sc.attrs[name].values.Some? && |sc.attrs[name].values.value| > 0
    ensures var current := if name in s.values then Some(s.values[name]) else None;
      Toggle(sc, s, name) == Set(sc, s, [(name, NextValue(sc.attrs[name].values.value, current))])
  {
  }

  /** Toggling a property whose value is the `k`-th of its distinct `values` stores the
      next one, wrapping after the last. */
  lemma ToggleAdvances(sc: Schema, s: State, name: string, k: nat)
    requires WF(sc) && CacheOk(sc, s) && name in sc.attrs && sc.attrs[name].typeName != TBoolean
    requires sc.attrs[name].values.Some? && k < |sc.attrs[name].values.value|
    requires DistinctValues(sc.attrs[name].values.value)
    requires Conforms(sc, name, sc.attrs[name].values.value[(k + 1) % |sc.attrs[name].values.value|])
    requires name in s.values && s.values[name] == sc.attrs[name].values.value[k]
    ensures var vs := sc.attrs[name].values.value;
      var o := Toggle(sc, s, name);
      o.Done? && o.state.values == s.values[name := vs[(k + 1) % |vs|]] && CacheOk(sc, o.state)
  {
    var vs := sc.attrs[name].values.value;
    NextValueAdvances(vs, k);
    ToggleWritesNext(sc, s, name);
    SetConforming(sc, s, name, vs[(k + 1) % |vs|]);
  }

  /** Toggling a property with `values` that holds no value stores the first one. */
  lemma ToggleStarts(sc: Schema, s: State, name: string)
    requires WF(sc) && CacheOk(sc, s) && name in sc.attrs && sc.attrs[name].typeName != TBoolean
    requires sc.attrs[name].values.Some? && |sc.attrs[name].values.value| > 0
    requires Conforms(sc, name, sc.attrs[name].values.value[0])
    requires name !in s.values
    ensures var o := Toggle(sc, s, name);
      o.Done? && o.state.values == s.values[name := sc.attrs[name].values.value[0]]
  {
    SetConforming(sc, s, name, sc.attrs[name].values.value[0]);
  }

  /** Toggling a boolean property stores the negation of its truthiness: `true` from no
      value or `false`, `false` from `true`. */
  lemma ToggleFlips(sc: Schema, s: State, name: string)
    requires WF(sc) && CacheOk(sc, s) && name in sc.attrs && sc.attrs[name].typeName == TBoolean
    requires Conforms(sc, name, Bool(true)) && Conforms(sc, name, Bool(false))
    ensures var o := Toggle(sc, s, name);
      && o.Done? && CacheOk(sc, o.state)
      && (name !in s.values ==> o.state.values == s.values[name := Bool(true)])
      && (name in s.values && s.values[name] == Bool(true) ==> o.state.values == s.values[name := Bool(false)])
      && (name in s.values && s.values[name] == Bool(false) ==> o.state.values == s.values[name := Bool(true)])
  {
    var current := if name in s.values then Some(s.values[name]) else None;
    SetConforming(sc, s, name, Bool(!Truthy(current)));
  }

  /** Toggling a property whose listed values all conform always completes. */
  lemma ToggleListedDone(sc: Schema, s: State, name: string)
    requires WF(sc) && CacheOk(sc, s) && name in sc.attrs && sc.attrs[name].typeName != TBoolean
    requires sc.attrs[name].values.Some? && |sc.attrs[name].values.value| > 0
    requires forall k :: 0 <= k < |sc.attrs[name].values.value| ==> Conforms(sc, name, sc.attrs[name].values.value[k])
    ensures Toggle(sc, s, name).Done?
  {
    var vs := sc.attrs[name].values.value;
    var current := if name in s.values then Some(s.values[name]) else None;
    ToggleWritesNext(sc, s, name);
    assert NextValue(vs, current) in vs;
    SetConforming(sc, s, name, NextValue(vs, current));
  }

  // ---------------------------------------------------------------------------
  // The toggle fixture

  /** A property of any type restricted to three states, defaulting to the first. */
  const StateSpec := AttrSpec(TAny, false, Some(Str("CA")), false, Some([Str("CA"), Str("WA"), Str("NV")]), false)

  /** The three states are distinct and each may be stored. */
  lemma StateSpecListed(sc: Schema, name: string)
    requires name in sc.attrs && sc.attrs[name] == StateSpec && name !in sc.tests
    ensures DistinctValues(StateSpec.values.value)
    ensures forall k :: 0 <= k < |StateSpec.values.value| ==> Conforms(sc, name, StateSpec.values.value[k])
  {
    var vs := StateSpec.values.value;
    assert vs[0] != vs[1] && vs[0] != vs[2] && vs[1] != vs[2];
  }

  /** Toggling the three-state property moves `CA` to `WA`, `WA` to `NV` and `NV` back
      to `CA`, and from no value to `CA`. */
  lemma ToggleCycles(sc: Schema, s: State, name: string)
    requires WF(sc) && CacheOk(sc, s) && name in sc.attrs && sc.attrs[name] == StateSpec && name !in sc.tests
    ensures var o := Toggle(sc, s, name);
      && o.Done?
      && (name !in s.values ==> o.state.values == s.values[name := Str("CA")])
      && (name in s.values && s.values[name] == Str("CA") ==> o.state.values == s.values[name := Str("WA")])
      && (name in s.values && s.values[name] == Str("WA") ==> o.state.values == s.values[name := Str("NV")])
      && (name in s.values && s.values[name] == Str("NV") ==> o.state.values == s.values[name := Str("CA")])
  {
    StateSpecListed(sc, name);
    ToggleListedDone(sc, s, name);
    if name !in s.values {
      ToggleStarts(sc, s, name);
    } else if s.values[name] == Str("CA") {
      ToggleAdvances(sc, s, name, 0);
    } else if s.values[name] == Str("WA") {
      ToggleAdvances(sc, s, name, 1);
    } else if s.values[name] == Str("NV") {
      ToggleAdvances(sc, s, name, 2);
    }
  }
}

=== FILE: notify.dfy ===
/**
 * One `set` call: apply the writes, invalidate the affected derived values,
 * re-evaluate them in dependency order, and report the change events of the pass.
 */
module Notify {
  import opened Wrappers
  import opened Values
  import opened Schema
  import opened Store
  import opened Derived
  import opened Writes

  /** `change:<name>` carrying the new value, or the aggregate `change`. */
  datatype Event = Change(name: string, value: Value) | ChangeAny

  /** A completed pass with its events in firing order, or the error that stopped the
      call together with the state it leaves behind (writes before the failing one
      stay applied). */
  datatype SetOutcome = Done(state: State, events: seq<Event>) | Failed(error: Error, state: State)

  /** The instance invariant: the store holds no derived name; every declared value
      went through the pipeline; the cache is consistent; `previous` holds a derived
      value only for a cacheable property. */
  ghost predicate Inv(sc: Schema, s: State)
    requires WF(sc)
  {
    && (forall n :: n in s.values ==> !IsDerivedName(sc, n))
    && (forall n :: n in s.values && n in sc.attrs ==> Conforms(sc, n, s.values[n]))
    && CacheOk(sc, s)
    && (forall i :: 0 <= i < |sc.derived| && sc.derived[i].name in s.previous ==> sc.derived[i].cacheable)
  }

  /** What `previous` answers during and after a pass: the values, including memoized
      derived values, as they stood before it. */
  function Snapshot(s: State): map<string, Value> {
    s.values + s.cache
  }

  /** The names whose value differs between `before` and `after`. */
  ghost function DiffSet(before: map<string, Value>, after: map<string, Value>): set<string> {
    set n | n in after && Differs(before, after, n)
  }

  function Names(sc: Schema, aff: set<nat>): set<string>
    requires forall i :: i in aff ==> i < |sc.derived|
  {
    set i | i in aff :: sc.derived[i].name
  }

  /** Drops the memoized values of the derived properties in `aff`. */
  function Invalidate(sc: Schema, cache: map<string, Value>, aff: set<nat>): (m: map<string, Value>)
    requires forall i :: i in aff ==> i < |sc.derived|
    ensures forall n :: n in m <==> n in cache && n !in Names(sc, aff)
    ensures forall n :: n in m ==> m[n] == cache[n]
  {
    map n | n in cache && n !in Names(sc, aff) :: cache[n]
  }

  /** The values the derived properties denote over `vals`, in compiled order. */
  function Denotations(sc: Schema, vals: map<string, Value>): (dv: seq<Value>)
    requires WF(sc)
    ensures |dv| == |sc.derived|
    ensures forall j :: 0 <= j < |dv| ==> dv[j] == PureValue(sc, vals, j)
  {
    seq(|sc.derived|, j requires 0 <= j < |sc.derived| => PureValue(sc, vals, j))
  }

  /** Whether derived property `j`, re-evaluated to `v`, announces a change: always when
      it is not cacheable, otherwise only when it had no memoized value before the pass
      or `v` differs from that one. */
  predicate Fires(sc: Schema, prior: map<string, Value>, j: nat, v: Value)
    requires j < |sc.derived|
  {
    var d := sc.derived[j];
    !d.cacheable || d.name !in prior || prior[d.name] != v
  }

  /** The derived properties from index `i` on that are affected and announce a change,
      given their new values `dv`, in compiled (dependency) order. */
  function Fired(sc: Schema, dv: seq<Value>, aff: set<nat>, prior: map<string, Value>, i: nat): (r: seq<nat>)
    requires |dv| == |sc.derived| && i <= |sc.derived|
    ensures forall k :: 0 <= k < |r| ==> i <= r[k] < |sc.derived|
    ensures forall a, b :: 0 <= a < b < |r| ==> r[a] < r[b]
    decreases |sc.derived| - i
  {
    if i == |sc.derived| then []
    else (if i in aff && Fires(sc, prior, i, dv[i]) then [i] else []) + Fired(sc, dv, aff, prior, i + 1)
  }

  /** `Fired` lists exactly the affected properties from `i` on that fire. */
  lemma {:induction false} FiredMembers(sc: Schema, dv: seq<Value>, aff: set<nat>, prior: map<string, Value>, i: nat)
    requires |dv| == |sc.derived| && i <= |sc.derived|
    ensures forall j :: j in Fired(sc, dv, aff, prior, i) <==> i <= j < |sc.derived| && j in aff && Fires(sc, prior, j, dv[j])
    decreases |sc.derived| - i
  {
    if i < |sc.derived| {
      FiredMembers(sc, dv, aff, prior, i + 1);
    }
  }

  /** The `change:<name>` events of derived properties `js`, with their new values. */
  function DerivedEvents(sc: Schema, dv: seq<Value>, js: seq<nat>): (evs: seq<Event>)
    requires |dv| == |sc.derived| && forall k :: 0 <= k < |js| ==> js[k] < |sc.derived|
    ensures |evs| == |js|
    ensures forall k :: 0 <= k < |js| ==> evs[k] == Change(sc.derived[js[k]].name, dv[js[k]])
  {
    if js == [] then []
    else [Change(sc.derived[js[0]].name, dv[js[0]])] + DerivedEvents(sc, dv, js[1..])
  }

  /** The `change:<name>` events of the declared and ad-hoc names `changed`. */
  function DeclaredEvents(changed: seq<string>, vals: map<string, Value>): (evs: seq<Event>)
    requires forall n :: n in changed ==> n in vals
    ensures |evs| == |changed|
    ensures forall k :: 0 <= k < |changed| ==> evs[k] == Change(changed[k], vals[changed[k]])
  {
    if changed == [] then []
    else [Change(changed[0], vals[changed[0]])] + DeclaredEvents(changed[1..], vals)
  }

  /** Re-evaluates the affected derived properties from index `i` on, in compiled order:
      each runs its `fn` once, a cacheable one is memoized before its dependents run,
      and each announces a change as `Fires` says. */
  function Refresh(sc: Schema, s: State, aff: set<nat>, prior: map<string, Value>, i: nat): (r: (State, seq<Event>))
    requires WF(sc) && i <= |sc.derived|
    ensures r.0.values == s.values && r.0.previous == s.previous && r.0.policy == s.policy
    ensures forall n :: n in s.cache ==> n in r.0.cache
    decreases |sc.derived| - i
  {
    if i == |sc.derived| then (s, [])
    else if i !in aff then Refresh(sc, s, aff, prior, i + 1)
    else
      var c := Compute(sc, s, i);
      var rest := Refresh(sc, Memo(sc, c.0, i, c.1), aff, prior, i + 1);
      (rest.0, Announce(sc, prior, i, c.1) + rest.1)
  }

  /** Memoizes `v` for derived property `i` if it is cacheable. */
  function Memo(sc: Schema, s: State, i: nat, v: Value): (s': State)
    requires i < |sc.derived|
    ensures s'.values == s.values && s'.previous == s.previous && s'.policy == s.policy && s'.runs == s.runs
    ensures forall n :: n in s.cache ==> n in s'.cache
    ensures sc.derived[i].cacheable ==> sc.derived[i].name in s'.cache && s'.cache[sc.derived[i].name] == v
    ensures forall n :: n != sc.derived[i].name ==> (n in s'.cache <==> n in s.cache) && (n in s.cache ==> s'.cache[n] == s.cache[n])
  {
    if sc.derived[i].cacheable then s.(cache := s.cache[sc.derived[i].name := v]) else s
  }

  /** The event re-evaluated property `i` with new value `v` announces, if any. */
  function Announce(sc: Schema, prior: map<string, Value>, i: nat, v: Value): seq<Event>
    requires i < |sc.derived|
  {
    if Fires(sc, prior, i, v) then [Change(sc.derived[i].name, v)] else []
  }

  /** The affected properties from `i` on are not memoized. */
  ghost predicate Cleared(sc: Schema, s: State, aff: set<nat>, i: nat)
    requires WF(sc)
  {
    forall j :: i <= j < |sc.derived| && j in aff ==> sc.derived[j].name !in s.cache
  }

  /** One re-evaluation step keeps the cache consistent, memoizes the property if it
      is cacheable, leaves the later affected properties unmemoized, and yields the
      value the property denotes. */
  lemma RefreshStep(sc: Schema, s: State, aff: set<nat>, i: nat)
    requires WF(sc) && i < |sc.derived| && CacheOk(sc, s) && Cleared(sc, s, aff, i) && i in aff
    ensures var c := Compute(sc, s, i);
      var s2 := Memo(sc, c.0, i, c.1);
      && c.1 == PureValue(sc, s.values, i)
      && s2.values == s.values
      && CacheOk(sc, s2)
      && Cleared(sc, s2, aff, i + 1)
      && (sc.derived[i].cacheable ==> sc.derived[i].name in s2.cache)
  {
    var d := sc.derived[i];
    ComputeCorrect(sc, s, i);
    var c := Compute(sc, s, i);
    var s2 := Memo(sc, c.0, i, c.1);
    if d.cacheable {
      StoreKeepsCacheOk(sc, c.0, i);
    }
    forall j | i + 1 <= j < |sc.derived| && j in aff ensures sc.derived[j].name !in s2.cache {
      ClosureFromBelow(sc, i, 0);
      ComputeLeaves(sc, s, i, j);
      NamesDistinct(sc, i, j);
    }
  }

  /** Re-evaluation keeps the cache consistent and leaves every affected cacheable
      property memoized. */
  lemma {:induction false} RefreshMemoizes(sc: Schema, s: State, aff: set<nat>, prior: map<string, Value>, i: nat)
    requires WF(sc) && i <= |sc.derived| && CacheOk(sc, s) && Cleared(sc, s, aff, i)
    ensures CacheOk(sc, Refresh(sc, s, aff, prior, i).0)
    ensures forall j :: i <= j < |sc.derived| && j in aff && sc.derived[j].cacheable ==>
      sc.derived[j].name in Refresh(sc, s, aff, prior, i).0.cache
    decreases |sc.derived| - i
  {
    if i < |sc.derived| {
      if i !in aff {
        RefreshMemoizes(sc, s, aff, prior, i + 1);
      } else {
        RefreshStep(sc, s, aff, i);
        var c := Compute(sc, s, i);
        RefreshMemoizes(sc, Memo(sc, c.0, i, c.1), aff, prior, i + 1);
      }
    }
  }

  /** Re-evaluation leaves every affected cacheable property from `i` on memoized,
      whatever the cache held before. */
  lemma {:induction false} RefreshStores(sc: Schema, s: State, aff: set<nat>, prior: map<string, Value>, i: nat, j: nat)
    requires WF(sc) && i <= j < |sc.derived| && j in aff && sc.derived[j].cacheable
    ensures sc.derived[j].name in Refresh(sc, s, aff, prior, i).0.cache
    decreases |sc.derived| - i
  {
    if i !in aff {
      RefreshStores(sc, s, aff, prior, i + 1, j);
    } else if i < j {
      var c := Compute(sc, s, i);
      RefreshStores(sc, Memo(sc, c.0, i, c.1), aff, prior, i + 1, j);
    }
  }

  /** Re-evaluation announces exactly the changes `Fires` describes, in compiled order,
      with the values the properties denote. */
  lemma RefreshAnnounces(sc: Schema, s: State, aff: set<nat>, prior: map<string, Value>)
    requires WF(sc) && CacheOk(sc, s) && Cleared(sc, s, aff, 0)
    ensures Refresh(sc, s, aff, prior, 0).1
      == DerivedEvents(sc, Denotations(sc, s.values), Fired(sc, Denotations(sc, s.values), aff, prior, 0))
  {
    DenotationsDenote(sc, s.values, 0);
    AnnouncesFrom(sc, s, Denotations(sc, s.values), aff, prior, 0);
  }

  /** `dv` holds the values the derived properties from `i` on denote over `vals`. */
  ghost predicate Denotes(sc: Schema, vals: map<string, Value>, dv: seq<Value>, i: nat)
    requires WF(sc) && i <= |sc.derived|
    decreases |sc.derived| - i
  {
    |dv| == |sc.derived| && (i == |sc.derived| || (dv[i] == PureValue(sc, vals, i) && Denotes(sc, vals, dv, i + 1)))
  }

  lemma {:induction false} DenotationsDenote(sc: Schema, vals: map<string, Value>, i: nat)
    requires WF(sc) && i <= |sc.derived|
    ensures Denotes(sc, vals, Denotations(sc, vals), i)
    decreases |sc.derived| - i
  {
    if i < |sc.derived| {
      DenotationsDenote(sc, vals, i + 1);
    }
  }

  /** `RefreshAnnounces` from index `i` on, for values `dv` agreeing with the
      denotations over the store. */
  lemma {:induction false} AnnouncesFrom(sc: Schema, s: State, dv: seq<Value>, aff: set<nat>, prior: map<string, Value>, i: nat)
    requires WF(sc) && i <= |sc.derived| && CacheOk(sc, s) && Cleared(sc, s, aff, i)
    requires Denotes(sc, s.values, dv, i)
    ensures Refresh(sc, s, aff, prior, i).1 == DerivedEvents(sc, dv, Fired(sc, dv, aff, prior, i))
    decreases |sc.derived| - i
  {
    if i < |sc.derived| {
      if i !in aff {
        AnnouncesFrom(sc, s, dv, aff, prior, i + 1);
        SkipAnnounces(sc, s, dv, aff, prior, i);
      } else {
        var c := Compute(sc, s, i);
        var s2 := Memo(sc, c.0, i, c.1);
        RefreshStep(sc, s, aff, i);
        AnnouncesFrom(sc, s2, dv, aff, prior, i + 1);
        StepAnnounces(sc, s, dv, aff, prior, i);
      }
    } else {
      assert Fired(sc, dv, aff, prior, i) == [];
    }
  }

  /** The inductive step of `AnnouncesFrom` over an unaffected property. */
  lemma SkipAnnounces(sc: Schema, s: State, dv: seq<Value>, aff: set<nat>, prior: map<string, Value>, i: nat)
    requires WF(sc) && i < |sc.derived| && i !in aff && |dv| == |sc.derived|
    requires Refresh(sc, s, aff, prior, i + 1).1 == DerivedEvents(sc, dv, Fired(sc, dv, aff, prior, i + 1))
    ensures Refresh(sc, s, aff, prior, i).1 == DerivedEvents(sc, dv, Fired(sc, dv, aff, prior, i))
  {
    RefreshSkips(sc, s, aff, prior, i);
    FiredSkips(sc, dv, aff, prior, i);
  }

  /** The inductive step of `AnnouncesFrom` over an affected property. */
  lemma StepAnnounces(sc: Schema, s: State, dv: seq<Value>, aff: set<nat>, prior: map<string, Value>, i: nat)
    requires WF(sc) && i < |sc.derived| && i in aff && |dv| == |sc.derived|
    requires dv[i] == Compute(sc, s, i).1
    requires var c := Compute(sc, s, i);
      Refresh(sc, Memo(sc, c.0, i, c.1), aff, prior, i + 1).1 == DerivedEvents(sc, dv, Fired(sc, dv, aff, prior, i + 1))
    ensures Refresh(sc, s, aff, prior, i).1 == DerivedEvents(sc, dv, Fired(sc, dv, aff, prior, i))
  {
    RefreshUnfolds(sc, s, aff, prior, i);
    ConsEvents(sc, dv, aff, prior, i);
  }

  /** `Refresh` passes over an unaffected property. */
  lemma RefreshSkips(sc: Schema, s: State, aff: set<nat>, prior: map<string, Value>, i: nat)
    requires WF(sc) && i < |sc.derived| && i !in aff
    ensures Refresh(sc, s, aff, prior, i) == Refresh(sc, s, aff, prior, i + 1)
  {
  }

  /** An unaffected property never fires. */
  lemma FiredSkips(sc: Schema, dv: seq<Value>, aff: set<nat>, prior: map<string, Value>, i: nat)
    requires |dv| == |sc.derived| && i < |sc.derived| && i !in aff
    ensures Fired(sc, dv, aff, prior, i) == Fired(sc, dv, aff, prior, i + 1)
  {
    assert Fired(sc, dv, aff, prior, i) == [] + Fired(sc, dv, aff, prior, i + 1);
  }

  /** One step of `Refresh` on an affected property. */
  lemma RefreshUnfolds(sc: Schema, s: State, aff: set<nat>, prior: map<string, Value>, i: nat)
    requires WF(sc) && i < |sc.derived| && i in aff
    ensures var c := Compute(sc, s, i);
      Refresh(sc, s, aff, prior, i).1 == Announce(sc, prior, i, c.1) + Refresh(sc, Memo(sc, c.0, i, c.1), aff, prior, i + 1).1
  {
  }

  /** The events from an affected property `i` on: its own, if it fires, then the
      rest. */
  lemma ConsEvents(sc: Schema, dv: seq<Value>, aff: set<nat>, prior: map<string, Value>, i: nat)
    requires |dv| == |sc.derived| && i < |sc.derived| && i in aff
    ensures DerivedEvents(sc, dv, Fired(sc, dv, aff, prior, i))
      == Announce(sc, prior, i, dv[i]) + DerivedEvents(sc, dv, Fired(sc, dv, aff, prior, i + 1))
  {
    var rest := Fired(sc, dv, aff, prior, i + 1);
    var all := Fired(sc, dv, aff, prior, i);
    if Fires(sc, prior, i, dv[i]) {
      assert all == [i] + rest;
      assert all[1..] == rest;
    } else {
      assert all == rest;
    }
  }

  // ---------------------------------------------------------------------------
  // One `set` call

  /** The names a call changed, as a set. */
  function ChangedSet(changed: seq<string>): set<string> {
    set n | n in changed
  }

  /** One `set` call with the writes `ws` (one name each). The writes are applied in
      order; `previous` becomes the snapshot of the values before the call; the derived
      properties whose expanded dependencies changed lose their memoized values. A
      refused write stops the call with its error and no events. Otherwise the affected
      derived properties are re-evaluated and the call reports one `change:<name>` per
      changed name, then one per derived property that fires, then one `change` if
      anything changed. */
  function Set(sc: Schema, s: State, ws: Writes): (o: SetOutcome)
    requires WF(sc) && DistinctNames(ws)
    ensures o.state.previous == Snapshot(s) && o.state.policy == s.policy
    ensures o.Failed? ==> o.state.runs == s.runs
  {
    var ap := ApplyWrites(sc, s.policy, s.values, ws);
    var aff := Affected(sc, ChangedSet(ap.changed));
    var s1 := State(ap.values, Snapshot(s), Invalidate(sc, s.cache, aff), s.runs, s.policy);
    match ap.failure
    case Some(e) => Failed(e, s1)
    case None =>
      var r := Refresh(sc, s1, aff, s.cache, 0);
      Done(r.0, DeclaredEvents(ap.changed, ap.values) + r.1 + (if |ap.changed| > 0 then [ChangeAny] else []))
  }

  /** The set of names a call changed is the set of names whose value differs. */
  lemma ChangedIsDiff(sc: Schema, policy: Policy, vals: map<string, Value>, ws: Writes)
    requires WF(sc) && DistinctNames(ws)
    ensures var ap := ApplyWrites(sc, policy, vals, ws);
      ChangedSet(ap.changed) == DiffSet(vals, ap.values)
  {
  }

  /** Dropping the memoized values of the properties a change affects keeps the cache
      consistent with the new values: every entry that survives belongs to a property
      none of whose expanded dependencies changed. */
  lemma InvalidateKeepsCacheOk(sc: Schema, s: State, vals: map<string, Value>)
    requires WF(sc) && CacheOk(sc, s) && forall n :: n in s.values ==> n in vals
    ensures var aff := Affected(sc, DiffSet(s.values, vals));
      && CacheOk(sc, s.(values := vals, cache := Invalidate(sc, s.cache, aff)))
      && Cleared(sc, s.(values := vals, cache := Invalidate(sc, s.cache, aff)), aff, 0)
  {
    var dif := DiffSet(s.values, vals);
    var aff := Affected(sc, dif);
    var s1 := s.(values := vals, cache := Invalidate(sc, s.cache, aff));
    forall i | 0 <= i < |sc.derived| && sc.derived[i].name in s1.cache
      ensures sc.derived[i].cacheable && s1.cache[sc.derived[i].name] == PureValue(sc, s1.values, i)
    {
      assert i !in aff;
      UnaffectedKeepsValue(sc, s.values, vals, i);
    }
  }

  /** A derived property none of whose expanded dependencies changed denotes the same
      value after the change. */
  lemma UnaffectedKeepsValue(sc: Schema, before: map<string, Value>, after: map<string, Value>, i: nat)
    requires WF(sc) && i < |sc.derived| && forall n :: n in before ==> n in after
    requires ExpandedDeps(sc, i) * DiffSet(before, after) == {}
    ensures PureValue(sc, before, i) == PureValue(sc, after, i)
  {
    var dif := DiffSet(before, after);
    forall n | n in ExpandedDeps(sc, i) ensures (n in before <==> n in after) && (n in before ==> before[n] == after[n]) {
      assert n !in ExpandedDeps(sc, i) * dif;
      assert !Differs(before, after, n);
    }
    PureValueFrame(sc, before, after, i);
  }

  /** The state a call leaves: the store holds the applied writes, the cache stays
      consistent, and the call fails exactly when a write was refused, dropping the
      memoized values of the affected properties. */
  lemma SetShape(sc: Schema, s: State, ws: Writes)
    requires WF(sc) && DistinctNames(ws) && CacheOk(sc, s)
    ensures var ap := ApplyWrites(sc, s.policy, s.values, ws);
      var o := Set(sc, s, ws);
      && o.state.values == ap.values
      && CacheOk(sc, o.state)
      && (o.Failed? <==> ap.failure.Some?)
      && (o.Failed? ==>
            o.error == ap.failure.value
            && o.state.cache == Invalidate(sc, s.cache, Affected(sc, DiffSet(s.values, ap.values))))
  {
    var ap := ApplyWrites(sc, s.policy, s.values, ws);
    ChangedIsDiff(sc, s.policy, s.values, ws);
    var aff := Affected(sc, DiffSet(s.values, ap.values));
    InvalidateKeepsCacheOk(sc, s, ap.values);
    var s1 := State(ap.values, Snapshot(s), Invalidate(sc, s.cache, aff), s.runs, s.policy);
    assert s1 == s.(values := ap.values, cache := Invalidate(sc, s.cache, aff)).(previous := Snapshot(s));
    if ap.failure.None? {
      RefreshMemoizes(sc, s1, aff, s.cache, 0);
    }
  }

  /** The events of a completed call in terms of its parts: the declared changes, then
      the derived properties that fire over the new values, then the aggregate. */
  lemma SetEvents(sc: Schema, s: State, ws: Writes)
    requires WF(sc) && DistinctNames(ws) && CacheOk(sc, s)
    ensures var ap := ApplyWrites(sc, s.policy, s.values, ws);
      var aff := Affected(sc, DiffSet(s.values, ap.values));
      var dv := Denotations(sc, ap.values);
      var o := Set(sc, s, ws);
      o.Done? ==>
        && o.state.values == ap.values
        && o.events == DeclaredEvents(ap.changed, ap.values)
                       + DerivedEvents(sc, dv, Fired(sc, dv, aff, s.cache, 0))
                       + (if |ap.changed| > 0 then [ChangeAny] else [])
  {
    var ap := ApplyWrites(sc, s.policy, s.values, ws);
    ChangedIsDiff(sc, s.policy, s.values, ws);
    var aff := Affected(sc, DiffSet(s.values, ap.values));
    InvalidateKeepsCacheOk(sc, s, ap.values);
    var s1 := State(ap.values, Snapshot(s), Invalidate(sc, s.cache, aff), s.runs, s.policy);
    assert s1 == s.(values := ap.values, cache := Invalidate(sc, s.cache, aff)).(previous := Snapshot(s));
    if ap.failure.None? {
      RefreshAnnounces(sc, s1, aff, s.cache);
    }
  }

  /** Every call, completed or refused, keeps the instance invariant. */
  lemma SetKeepsInv(sc: Schema, s: State, ws: Writes)
    requires WF(sc) && DistinctNames(ws) && Inv(sc, s)
    ensures Inv(sc, Set(sc, s, ws).state)
  {
    var s' := Set(sc, s, ws).state;
    SetShape(sc, s, ws);
    AppliedStoreOk(sc, s.policy, s.values, ws);
    forall i | 0 <= i < |sc.derived| && sc.derived[i].name in s'.previous ensures sc.derived[i].cacheable {
      assert sc.derived[i].name !in s.values;
    }
  }

  /** Values that all went through the pipeline still do after a call. */
  lemma AppliedStoreOk(sc: Schema, policy: Policy, vals: map<string, Value>, ws: Writes)
    requires WF(sc) && DistinctNames(ws)
    requires forall n :: n in vals ==> !IsDerivedName(sc, n) && (n in sc.attrs ==> Conforms(sc, n, vals[n]))
    ensures var after := ApplyWrites(sc, policy, vals, ws).values;
      forall n :: n in after ==> !IsDerivedName(sc, n) && (n in sc.attrs ==> Conforms(sc, n, after[n]))
  {
    var after := ApplyWrites(sc, policy, vals, ws).values;
    AppliedValuesConform(sc, policy, vals, ws);
    forall n | n in after ensures !IsDerivedName(sc, n) && (n in sc.attrs ==> Conforms(sc, n, after[n])) {
      if !Differs(vals, after, n) {
        assert n in vals && vals[n] == after[n];
      }
    }
  }

  // ---------------------------------------------------------------------------
  // The events of a call

  /** A completed call announces `change:<name>` for a name that is not derived exactly
      when the call changed its value, and the event carries the new value. */
  lemma SetAnnouncesDeclared(sc: Schema, s: State, ws: Writes)
    requires WF(sc) && DistinctNames(ws) && CacheOk(sc, s)
    ensures var o := Set(sc, s, ws);
      o.Done? ==> forall n, v :: !IsDerivedName(sc, n) ==>
        (Change(n, v) in o.events <==> Differs(s.values, o.state.values, n) && v == o.state.values[n])
  {
    var o := Set(sc, s, ws);
    if o.Done? {
      var ap := ApplyWrites(sc, s.policy, s.values, ws);
      EventsSplit(sc, s, ws);
      DeclaredEventsAre(ap.changed, ap.values);
    }
  }

  /** A completed call announces `change:<name>` for derived property `j` exactly when
      one of its expanded dependencies changed and it fires, and the event carries the
      value the property now denotes. */
  lemma SetAnnouncesDerived(sc: Schema, s: State, ws: Writes)
    requires WF(sc) && DistinctNames(ws) && CacheOk(sc, s)
    ensures var o := Set(sc, s, ws);
      o.Done? ==> forall j, v :: 0 <= j < |sc.derived| ==>
        (Change(sc.derived[j].name, v) in o.events <==>
           && ExpandedDeps(sc, j) * DiffSet(s.values, o.state.values) != {}
           && Fires(sc, s.cache, j, PureValue(sc, o.state.values, j))
           && v == PureValue(sc, o.state.values, j))
  {
    var o := Set(sc, s, ws);
    if o.Done? {
      var ap := ApplyWrites(sc, s.policy, s.values, ws);
      var aff := Affected(sc, DiffSet(s.values, ap.values));
      var dv := Denotations(sc, ap.values);
      EventsSplit(sc, s, ws);
      FiredEvents(sc, dv, aff, s.cache);
      forall j, v | 0 <= j < |sc.derived|
        ensures Change(sc.derived[j].name, v) in o.events <==> Change(sc.derived[j].name, v) in DerivedEvents(sc, dv, Fired(sc, dv, aff, s.cache, 0))
      {
        assert IsDerivedName(sc, sc.derived[j].name);
      }
    }
  }

  /** A completed call's events, split by name: a derived name is announced only among
      the derived events, any other name only among the declared ones. */
  lemma EventsSplit(sc: Schema, s: State, ws: Writes)
    requires WF(sc) && DistinctNames(ws) && CacheOk(sc, s)
    ensures var o := Set(sc, s, ws);
      var ap := ApplyWrites(sc, s.policy, s.values, ws);
      var aff := Affected(sc, DiffSet(s.values, ap.values));
      var dv := Denotations(sc, ap.values);
      o.Done? ==>
        && o.state.values == ap.values
        && forall n, v :: Change(n, v) in o.events <==>
             if IsDerivedName(sc, n) then Change(n, v) in DerivedEvents(sc, dv, Fired(sc, dv, aff, s.cache, 0))
             else Change(n, v) in DeclaredEvents(ap.changed, ap.values)
  {
    var o := Set(sc, s, ws);
    var ap := ApplyWrites(sc, s.policy, s.values, ws);
    SetEvents(sc, s, ws);
    if o.Done? {
      var aff := Affected(sc, DiffSet(s.values, ap.values));
      var dv := Denotations(sc, ap.values);
      var js := Fired(sc, dv, aff, s.cache, 0);
      DerivedEventsNamed(sc, dv, js);
      DeclaredEventsNamed(ap.changed, ap.values);
      AppliedValuesConform(sc, s.policy, s.values, ws);
      Split(sc, DeclaredEvents(ap.changed, ap.values), DerivedEvents(sc, dv, js), if |ap.changed| > 0 then [ChangeAny] else []);
    }
  }

  /** Events with names that are not derived, then events with derived names, then at
      most an aggregate: a named event is in the first part or the second according to
      its name. */
  lemma Split(sc: Schema, decl: seq<Event>, der: seq<Event>, agg: seq<Event>)
    requires forall e :: e in decl ==> e.Change? && !IsDerivedName(sc, e.name)
    requires forall e :: e in der ==> e.Change? && IsDerivedName(sc, e.name)
    requires agg == [] || agg == [ChangeAny]
    ensures forall n, v :: Change(n, v) in decl + der + agg <==>
      if IsDerivedName(sc, n) then Change(n, v) in der else Change(n, v) in decl
  {
  }

  /** `DeclaredEvents` announces each changed name once with its value. */
  lemma DeclaredEventsAre(changed: seq<string>, vals: map<string, Value>)
    requires forall n :: n in changed ==> n in vals
    ensures forall n, v :: Change(n, v) in DeclaredEvents(changed, vals) <==> n in changed && v == vals[n]
  {
    var evs := DeclaredEvents(changed, vals);
    forall n, v ensures Change(n, v) in evs <==> n in changed && v == vals[n] {
      if Change(n, v) in evs {
        var k :| 0 <= k < |evs| && evs[k] == Change(n, v);
        assert changed[k] in changed;
      }
      if n in changed && v == vals[n] {
        var k :| 0 <= k < |changed| && changed[k] == n;
        assert evs[k] == Change(n, v);
      }
    }
  }

  /** Every event of `DerivedEvents` names a derived property. */
  lemma DerivedEventsNamed(sc: Schema, dv: seq<Value>, js: seq<nat>)
    requires |dv| == |sc.derived| && forall k :: 0 <= k < |js| ==> js[k] < |sc.derived|
    ensures forall e :: e in DerivedEvents(sc, dv, js) ==> e.Change? && IsDerivedName(sc, e.name)
  {
    var evs := DerivedEvents(sc, dv, js);
    forall e | e in evs ensures e.Change? && IsDerivedName(sc, e.name) {
      var k :| 0 <= k < |evs| && evs[k] == e;
      assert sc.derived[js[k]].name == e.name;
    }
  }

  /** The events of the fired properties: property `j` announces exactly when it is
      affected and fires, and with its new value. */
  lemma FiredEvents(sc: Schema, dv: seq<Value>, aff: set<nat>, prior: map<string, Value>)
    requires WF(sc) && |dv| == |sc.derived|
    ensures forall j, v :: 0 <= j < |sc.derived| ==>
      (Change(sc.derived[j].name, v) in DerivedEvents(sc, dv, Fired(sc, dv, aff, prior, 0)) <==>
         j in aff && Fires(sc, prior, j, dv[j]) && v == dv[j])
  {
    var js := Fired(sc, dv, aff, prior, 0);
    var evs := DerivedEvents(sc, dv, js);
    FiredMembers(sc, dv, aff, prior, 0);
    forall j, v | 0 <= j < |sc.derived|
      ensures Change(sc.derived[j].name, v) in evs <==> j in aff && Fires(sc, prior, j, dv[j]) && v == dv[j]
    {
      if Change(sc.derived[j].name, v) in evs {
        var k :| 0 <= k < |evs| && evs[k] == Change(sc.derived[j].name, v);
        NamesDistinct(sc, j, js[k]);
        assert js[k] in js;
      }
      if j in aff && Fires(sc, prior, j, dv[j]) && v == dv[j] {
        assert j in js;
        var k :| 0 <= k < |js| && js[k] == j;
        assert evs[k] == Change(sc.derived[j].name, v);
      }
    }
  }

  /** Every event of `DeclaredEvents` names one of the changed names. */
  lemma DeclaredEventsNamed(changed: seq<string>, vals: map<string, Value>)
    requires forall n :: n in changed ==> n in vals
    ensures forall e :: e in DeclaredEvents(changed, vals) ==> e.Change? && e.name in changed
  {
    var evs := DeclaredEvents(changed, vals);
    forall e | e in evs ensures e.Change? && e.name in changed {
      var k :| 0 <= k < |evs| && evs[k] == e;
      assert changed[k] in changed;
    }
  }

  /** A completed call reports the aggregate `change` exactly when it changed some
      value, once and last; a call that changes nothing reports nothing. */
  lemma SetAggregate(sc: Schema, s: State, ws: Writes)
    requires WF(sc) && DistinctNames(ws) && CacheOk(sc, s)
    ensures var o := Set(sc, s, ws);
      o.Done? ==>
        && (ChangeAny in o.events <==> DiffSet(s.values, o.state.values) != {})
        && (DiffSet(s.values, o.state.values) != {} ==>
              o.events[|o.events| - 1] == ChangeAny && forall k :: 0 <= k < |o.events| - 1 ==> o.events[k].Change?)
        && (DiffSet(s.values, o.state.values) == {} ==> o.events == [])
  {
    var o := Set(sc, s, ws);
    var ap := ApplyWrites(sc, s.policy, s.values, ws);
    SetEvents(sc, s, ws);
    ChangedIsDiff(sc, s.policy, s.values, ws);
    if o.Done? {
      var dif := DiffSet(s.values, ap.values);
      var aff := Affected(sc, dif);
      var dv := Denotations(sc, ap.values);
      var js := Fired(sc, dv, aff, s.cache, 0);
      var decl := DeclaredEvents(ap.changed, ap.values);
      var der := DerivedEvents(sc, dv, js);
      var agg: seq<Event> := if |ap.changed| > 0 then [ChangeAny] else [];
      assert o.events == decl + der + agg;
      DerivedEventsNamed(sc, dv, js);
      DeclaredEventsNamed(ap.changed, ap.values);
      AggregateLast(decl + der, agg);
      if |ap.changed| > 0 {
        assert ap.changed[0] in ChangedSet(ap.changed);
      } else {
        assert ChangedSet(ap.changed) == {};
        assert aff == {};
        FiredNone(sc, dv, s.cache, 0);
      }
    }
  }

  /** Named changes followed by at most one aggregate: the aggregate occurs iff it was
      appended, and then last. */
  lemma AggregateLast(named: seq<Event>, agg: seq<Event>)
    requires forall e :: e in named ==> e.Change?
    requires agg == [] || agg == [ChangeAny]
    ensures ChangeAny in named + agg <==> agg == [ChangeAny]
    ensures agg == [ChangeAny] ==>
      (named + agg)[|named + agg| - 1] == ChangeAny && forall k :: 0 <= k < |named + agg| - 1 ==> (named + agg)[k].Change?
  {
    if agg == [ChangeAny] {
      assert (named + agg)[|named|] == ChangeAny;
      forall k | 0 <= k < |named + agg| - 1 ensures (named + agg)[k].Change? {
        assert (named + agg)[k] == named[k];
      }
    } else {
      assert named + agg == named;
    }
  }

  /** With nothing affected, nothing fires. */
  lemma {:induction false} FiredNone(sc: Schema, dv: seq<Value>, prior: map<string, Value>, i: nat)
    requires |dv| == |sc.derived| && i <= |sc.derived|
    ensures Fired(sc, dv, {}, prior, i) == []
    decreases |sc.derived| - i
  {
    if i < |sc.derived| {
      FiredNone(sc, dv, prior, i + 1);
    }
  }

  /** Events in announcement order: each name is announced at most once, no name that
      is not derived is announced after a derived one, and derived properties are
      announced in dependency order. */
  ghost predicate Ordered(sc: Schema, evs: seq<Event>) {
    && (forall a, b :: 0 <= a < b < |evs| && evs[a].Change? && evs[b].Change? ==> evs[a].name != evs[b].name)
    && (forall a, b :: 0 <= a < b < |evs| && evs[a].Change? && evs[b].Change? && IsDerivedName(sc, evs[a].name) ==>
          IsDerivedName(sc, evs[b].name))
    && (forall a, b, ja, jb ::
          && 0 <= a < b < |evs| && 0 <= ja < |sc.derived| && 0 <= jb < |sc.derived|
          && evs[a].Change? && evs[b].Change? && evs[a].name == sc.derived[ja].name && evs[b].name == sc.derived[jb].name
          ==> ja < jb)
  }

  /** A completed call announces in order. */
  lemma SetOrdered(sc: Schema, s: State, ws: Writes)
    requires WF(sc) && DistinctNames(ws) && CacheOk(sc, s)
    ensures var o := Set(sc, s, ws);
      o.Done? ==> Ordered(sc, o.events)
  {
    var o := Set(sc, s, ws);
    var ap := ApplyWrites(sc, s.policy, s.values, ws);
    SetEvents(sc, s, ws);
    if o.Done? {
      var aff := Affected(sc, DiffSet(s.values, ap.values));
      var dv := Denotations(sc, ap.values);
      var js := Fired(sc, dv, aff, s.cache, 0);
      var decl := DeclaredEvents(ap.changed, ap.values);
      var der := DerivedEvents(sc, dv, js);
      DerivedEventsNamed(sc, dv, js);
      DerivedEventsOrdered(sc, dv, js);
      DeclaredEventsNamed(ap.changed, ap.values);
      AppliedValuesConform(sc, s.policy, s.values, ws);
      assert forall e :: e in decl ==> e.Change? && !IsDerivedName(sc, e.name);
      DeclaredEventsOrdered(sc, ap.changed, ap.values);
      Layout(sc, decl, der);
      LayoutAggregate(sc, decl + der, if |ap.changed| > 0 then [ChangeAny] else []);
    }
  }

  /** The derived events of properties listed in increasing order are ordered. */
  lemma DerivedEventsOrdered(sc: Schema, dv: seq<Value>, js: seq<nat>)
    requires WF(sc) && |dv| == |sc.derived|
    requires forall k :: 0 <= k < |js| ==> js[k] < |sc.derived|
    requires forall a, b :: 0 <= a < b < |js| ==> js[a] < js[b]
    ensures Ordered(sc, DerivedEvents(sc, dv, js))
  {
    var evs := DerivedEvents(sc, dv, js);
    forall a, b, ja, jb | 0 <= a < b < |evs| && 0 <= ja < |sc.derived| && 0 <= jb < |sc.derived|
      && evs[a].Change? && evs[b].Change? && evs[a].name == sc.derived[ja].name && evs[b].name == sc.derived[jb].name
      ensures ja < jb
    {
      NamesDistinct(sc, ja, js[a]);
      NamesDistinct(sc, jb, js[b]);
    }
    forall a, b | 0 <= a < b < |evs| ensures evs[a].name != evs[b].name {
      NamesDistinct(sc, js[a], js[b]);
    }
    assert forall k :: 0 <= k < |evs| ==> IsDerivedName(sc, evs[k].name);
  }

  /** Ordered events with names that are not derived, followed by ordered events with
      derived names, are in order. */
  lemma Layout(sc: Schema, decl: seq<Event>, der: seq<Event>)
    requires forall e :: e in decl ==> e.Change? && !IsDerivedName(sc, e.name)
    requires forall e :: e in der ==> e.Change? && IsDerivedName(sc, e.name)
    requires Ordered(sc, decl) && Ordered(sc, der)
    ensures Ordered(sc, decl + der)
  {
    var evs := decl + der;
    var d := |decl|;
    forall k | 0 <= k < d ensures evs[k] == decl[k] && evs[k].Change? && !IsDerivedName(sc, evs[k].name) {
      assert decl[k] in decl;
    }
    forall k | d <= k < |evs| ensures evs[k] == der[k - d] && evs[k].Change? && IsDerivedName(sc, evs[k].name) {
      assert der[k - d] in der;
    }
  }

  /** Appending the aggregate keeps events in order. */
  lemma LayoutAggregate(sc: Schema, evs: seq<Event>, agg: seq<Event>)
    requires Ordered(sc, evs) && (agg == [] || agg == [ChangeAny])
    ensures Ordered(sc, evs + agg)
  {
    assert forall k :: 0 <= k < |evs| ==> (evs + agg)[k] == evs[k];
  }

  /** Declared events of distinct names are in order. */
  lemma DeclaredEventsOrdered(sc: Schema, changed: seq<string>, vals: map<string, Value>)
    requires WF(sc) && Distinct(changed) && forall n :: n in changed ==> n in vals
    requires forall n :: n in changed ==> !IsDerivedName(sc, n)
    ensures Ordered(sc, DeclaredEvents(changed, vals))
  {
    var evs := DeclaredEvents(changed, vals);
    forall k | 0 <= k < |evs| ensures !IsDerivedName(sc, evs[k].name) {
      assert changed[k] in changed;
    }
  }

  // ---------------------------------------------------------------------------
  // How often a call runs the derived functions

  /** Property `j` is left alone by the re-evaluation of the others: it is memoized, or
      nothing depends on it. */
  ghost predicate Sheltered(sc: Schema, s: State, j: nat)
    requires WF(sc) && j < |sc.derived|
  {
    (sc.derived[j].cacheable && sc.derived[j].name in s.cache) || !HasDependent(sc, j)
  }

  /** Re-evaluating the affected properties from `i` on does not run or touch a property
      `j` that is not among them, when it is sheltered. */
  lemma {:induction false} RefreshLeaves(sc: Schema, s: State, aff: set<nat>, prior: map<string, Value>, i: nat, j: nat)
    requires WF(sc) && i <= |sc.derived| && j < |sc.derived| && (j < i || j !in aff)
    requires Sheltered(sc, s, j)
    ensures Untouched(sc, s, Refresh(sc, s, aff, prior, i).0, j)
    decreases |sc.derived| - i
  {
    if i < |sc.derived| {
      if i !in aff {
        RefreshSkips(sc, s, aff, prior, i);
        RefreshLeaves(sc, s, aff, prior, i + 1, j);
      } else {
        var c := Compute(sc, s, i);
        var s2 := Memo(sc, c.0, i, c.1);
        if !HasDependent(sc, j) {
          NoDependentOutside(sc, j, i);
        }
        ComputeLeaves(sc, s, i, j);
        NamesDistinct(sc, i, j);
        RefreshLeaves(sc, s2, aff, prior, i + 1, j);
        RefreshUnfolds(sc, s, aff, prior, i);
      }
    }
  }

  /** Re-evaluating the affected properties from `i` on runs an affected property `j`
      exactly once when it is cacheable (its dependents then read the memoized value)
      or nothing depends on it. */
  lemma {:induction false} RefreshCounts(sc: Schema, s: State, aff: set<nat>, prior: map<string, Value>, i: nat, j: nat)
    requires WF(sc) && i <= j < |sc.derived| && j in aff
    requires sc.derived[j].cacheable || !HasDependent(sc, j)
    ensures Runs(Refresh(sc, s, aff, prior, i).0, sc.derived[j].name) == Runs(s, sc.derived[j].name) + 1
    decreases |sc.derived| - i
  {
    var c := Compute(sc, s, i);
    var s2 := Memo(sc, c.0, i, c.1);
    if i !in aff {
      RefreshSkips(sc, s, aff, prior, i);
      RefreshCounts(sc, s, aff, prior, i + 1, j);
    } else if i < j {
      ClosureFromBelow(sc, i, 0);
      ComputeLeaves(sc, s, i, j);
      NamesDistinct(sc, i, j);
      RefreshCounts(sc, s2, aff, prior, i + 1, j);
      RefreshUnfolds(sc, s, aff, prior, i);
    } else {
      ClosureFromBelow(sc, i, 0);
      EvalDepsLeaves(sc, s, i, 0, map[], i);
      RefreshLeaves(sc, s2, aff, prior, i + 1, j);
      RefreshUnfolds(sc, s, aff, prior, i);
    }
  }

  /** A completed call runs the `fn` of every affected derived property that is
      cacheable or has no dependents exactly once, and leaves alone every unaffected one
      that is memoized or has no dependents (a memoized one stays memoized). */
  lemma SetRuns(sc: Schema, s: State, ws: Writes)
    requires WF(sc) && DistinctNames(ws)
    ensures var o := Set(sc, s, ws);
      var dif := DiffSet(s.values, o.state.values);
      o.Done? ==>
        && (forall j ::
              && 0 <= j < |sc.derived| && ExpandedDeps(sc, j) * dif != {}
              && (sc.derived[j].cacheable || !HasDependent(sc, j))
              ==> Runs(o.state, sc.derived[j].name) == Runs(s, sc.derived[j].name) + 1)
        && (forall j :: 0 <= j < |sc.derived| && ExpandedDeps(sc, j) * dif == {} && Sheltered(sc, s, j) ==>
              Runs(o.state, sc.derived[j].name) == Runs(s, sc.derived[j].name)
              && (sc.derived[j].name in s.cache ==> sc.derived[j].name in o.state.cache))
  {
    var o := Set(sc, s, ws);
    var ap := ApplyWrites(sc, s.policy, s.values, ws);
    ChangedIsDiff(sc, s.policy, s.values, ws);
    var dif := DiffSet(s.values, ap.values);
    var aff := Affected(sc, dif);
    var s1 := State(ap.values, Snapshot(s), Invalidate(sc, s.cache, aff), s.runs, s.policy);
    if o.Done? {
      assert o.state == Refresh(sc, s1, aff, s.cache, 0).0;
      forall j | 0 <= j < |sc.derived| && ExpandedDeps(sc, j) * dif != {} && (sc.derived[j].cacheable || !HasDependent(sc, j))
        ensures Runs(o.state, sc.derived[j].name) == Runs(s, sc.derived[j].name) + 1
      {
        RefreshCounts(sc, s1, aff, s.cache, 0, j);
      }
      forall j | 0 <= j < |sc.derived| && ExpandedDeps(sc, j) * dif == {} && Sheltered(sc, s, j)
        ensures Runs(o.state, sc.derived[j].name) == Runs(s, sc.derived[j].name)
        ensures sc.derived[j].name in s.cache ==> sc.derived[j].name in o.state.cache
      {
        assert j !in aff;
        assert sc.derived[j].name !in Names(sc, aff);
        RefreshLeaves(sc, s1, aff, s.cache, 0, j);
      }
    }
  }

  /** A completed call leaves every affected cacheable derived property memoized, so
      the next read of it runs nothing. */
  lemma SetMemoizes(sc: Schema, s: State, ws: Writes)
    requires WF(sc) && DistinctNames(ws)
    ensures var o := Set(sc, s, ws);
      o.Done? ==> forall j ::
        0 <= j < |sc.derived| && sc.derived[j].cacheable && ExpandedDeps(sc, j) * DiffSet(s.values, o.state.values) != {}
        ==> sc.derived[j].name in o.state.cache
  {
    var o := Set(sc, s, ws);
    var ap := ApplyWrites(sc, s.policy, s.values, ws);
    ChangedIsDiff(sc, s.policy, s.values, ws);
    var dif := DiffSet(s.values, ap.values);
    var aff := Affected(sc, dif);
    var s1 := State(ap.values, Snapshot(s), Invalidate(sc, s.cache, aff), s.runs, s.policy);
    if o.Done? {
      assert o.state == Refresh(sc, s1, aff, s.cache, 0).0;
      forall j | 0 <= j < |sc.derived| && sc.derived[j].cacheable && ExpandedDeps(sc, j) * dif != {}
        ensures sc.derived[j].name in o.state.cache
      {
        RefreshStores(sc, s1, aff, s.cache, 0, j);
      }
    }
  }

  // ---------------------------------------------------------------------------
  // Refused writes and `previous`

  /** A call fails exactly when one of its writes is refused, and then reports that
      write's error. */
  lemma SetFails(sc: Schema, s: State, ws: Writes)
    requires WF(sc) && DistinctNames(ws) && CacheOk(sc, s)
    ensures var o := Set(sc, s, ws);
      && (o.Failed? <==> exists k :: 0 <= k < |ws| && Admit(sc, s.policy, ws[k].0, ws[k].1).Err?)
      && (o.Failed? ==> exists k :: 0 <= k < |ws| && Admit(sc, s.policy, ws[k].0, ws[k].1) == Err(o.error))
  {
    SetShape(sc, s, ws);
    AppliedWrites(sc, s.policy, s.values, ws);
    FailureFromWrite(sc, s.policy, s.values, ws);
  }

  /** A refused write stops the call: the writes before it stay applied, the ones after
      it are not made, and no event is reported. */
  lemma SetKeepsPrefix(sc: Schema, s: State, pre: Writes, bad: (string, Value), post: Writes)
    requires WF(sc) && DistinctNames(pre + [bad] + post) && DistinctNames(pre)
    requires forall k :: 0 <= k < |pre| ==> Admit(sc, s.policy, pre[k].0, pre[k].1).Ok?
    requires Admit(sc, s.policy, bad.0, bad.1).Err?
    ensures var o := Set(sc, s, pre + [bad] + post);
      && o.Failed?
      && o.error == Admit(sc, s.policy, bad.0, bad.1).error
      && o.state.values == ApplyWrites(sc, s.policy, s.values, pre).values
  {
    PartialApply(sc, s.policy, s.values, pre, bad, post);
  }

  /** A call whose only write is refused changes no value and drops no memoized value;
      it only moves the snapshot into `previous`. */
  lemma SetRefused(sc: Schema, s: State, name: string, raw: Value)
    requires WF(sc) && Admit(sc, s.policy, name, raw).Err?
    ensures Set(sc, s, [(name, raw)]) == Failed(Admit(sc, s.policy, name, raw).error, s.(previous := Snapshot(s)))
  {
    RefusedWriteKeepsValues(sc, s.policy, s.values, name, raw);
    var ap := ApplyWrites(sc, s.policy, s.values, [(name, raw)]);
    assert ChangedSet(ap.changed) == {};
    var aff := Affected(sc, {});
    assert aff == {};
    assert Invalidate(sc, s.cache, aff) == s.cache;
  }

  /** After a call, `previous` answers what a read answered before it: every attribute's
      value, and the memoized value of every derived property that had one (which is
      the value it denoted). */
  lemma SetRecordsPrevious(sc: Schema, s: State, ws: Writes)
    requires WF(sc) && DistinctNames(ws) && Inv(sc, s)
    ensures var p := Set(sc, s, ws).state.previous;
      && (forall n :: n in p <==> n in s.values || n in s.cache)
      && (forall n :: n in s.values ==> p[n] == s.values[n])
      && (forall j :: 0 <= j < |sc.derived| && sc.derived[j].name in p ==>
            sc.derived[j].name in s.cache && p[sc.derived[j].name] == PureValue(sc, s.values, j))
  {
    forall n | n in s.values ensures n !in s.cache {
      assert !IsDerivedName(sc, n);
    }
    forall j | 0 <= j < |sc.derived| && sc.derived[j].name in Snapshot(s) ensures sc.derived[j].name in s.cache {
      assert IsDerivedName(sc, sc.derived[j].name);
    }
  }
}

=== FILE: schema.dfy ===
/**
 * The compiled schema: one normalised specification per declared property (props and
 * session props), the derived properties in dependency order, and the dependency
 * graph between them.
 */
module Schema {
  import opened Wrappers
  import opened Values

  /** What a write to a name the schema does not declare does (`extraProperties`). */
  datatype Policy = Ignore | Allow | Reject

  /** A property's `test` function: a message rejects the value, None accepts it. */
  type TestFn = Value -> Option<string>

  /** A derived property's `fn`, given the current values of its dependencies (a name
      that holds no value is absent from the map). */
  type ComputeFn = map<string, Value> -> Value

  /** The three ways a property can be declared in `props` or `session`. */
  datatype Decl =
    | Shorthand(t: TypeName)                                            // name: 'string'
    | ArrayForm(t: TypeName, isRequired: Option<bool>, default: Option<Value>)  // name: [type, required, default]
    | ObjectForm(declaredType: Option<TypeName>, required: bool, default: Option<Value>,
                 allowNull: bool, values: Option<seq<Value>>, test: Option<TestFn>)

  /** The normalised specification of one declared property. Its `test` function is
      kept apart, in `Schema.tests`, so that specifications can be compared. */
  datatype AttrSpec = AttrSpec(
    typeName: TypeName,
    required: bool,
    default: Option<Value>,
    allowNull: bool,
    values: Option<seq<Value>>,
    session: bool)

  /** Brings any declaration form to the full specification; a missing type is `any`,
      a missing `required` is false. */
  function Normalize(d: Decl, session: bool): (a: AttrSpec)
    ensures a.session == session
    ensures !d.ObjectForm? ==> !a.allowNull && a.values.None?
  {
    match d
    case Shorthand(t) => AttrSpec(t, false, None, false, None, session)
    case ArrayForm(t, required, default) => AttrSpec(t, required.GetOr(false), default, false, None, session)
    case ObjectForm(t, required, default, allowNull, values, _) =>
      AttrSpec(t.GetOr(TAny), required, default, allowNull, values, session)
  }

  function TestOf(d: Decl): Option<TestFn> {
    if d.ObjectForm? then d.test else None
  }

  /** The shorthand, array and object forms of one declaration compile to the same
      specification, for props and session props alike. */
  lemma DeclarationFormsAgree(t: TypeName, required: bool, default: Option<Value>, session: bool)
    ensures Normalize(Shorthand(t), session) == Normalize(ArrayForm(t, None, None), session)
                                             == Normalize(ObjectForm(Some(t), false, None, false, None, None), session)
    ensures Normalize(ArrayForm(t, Some(required), default), session)
            == Normalize(ObjectForm(Some(t), required, default, false, None, None), session)
    ensures Normalize(ArrayForm(t, Some(required), default), session).required == required
    ensures Normalize(ArrayForm(t, Some(required), default), session).default == default
  {
  }

  /** A dependency of a derived property, resolved at compile time: a declared (or
      ad-hoc) name, or the derived property at `index` in the compiled order. */
  datatype Dep = OnBase(name: string) | OnDerived(name: string, index: nat)

  datatype DerivedSpec = DerivedSpec(name: string, deps: seq<Dep>, fn: ComputeFn, cacheable: bool)

  /** A compiled schema. `declOrder` lists the declared names in declaration order;
      `derived` is ordered so that every derived property comes after the derived
      properties it depends on. */
  datatype Schema = Schema(
    attrs: map<string, AttrSpec>,
    tests: map<string, TestFn>,
    declOrder: seq<string>,
    derived: seq<DerivedSpec>,
    policy: Policy)

  predicate IsDerivedName(sc: Schema, n: string) {
    exists i :: 0 <= i < |sc.derived| && sc.derived[i].name == n
  }

  predicate IsSession(sc: Schema, n: string) {
    n in sc.attrs && sc.attrs[n].session
  }

  predicate DepOk(sc: Schema, i: nat, d: Dep) {
    match d
    case OnBase(n) => !IsDerivedName(sc, n)
    case OnDerived(n, j) => j < i < |sc.derived| && sc.derived[j].name == n
  }

  /** Well-formed compiled schema: distinct names, no derived name declared as a
      property, every dependency resolved to an earlier derived property (so the
      graph is acyclic), and `declOrder` listing exactly the declared names. */
  predicate WF(sc: Schema) {
    && (forall i, j :: 0 <= i < j < |sc.derived| ==> sc.derived[i].name != sc.derived[j].name)
    && (forall i :: 0 <= i < |sc.derived| ==> sc.derived[i].name !in sc.attrs)
    && (forall i, k :: 0 <= i < |sc.derived| && 0 <= k < |sc.derived[i].deps| ==>
          DepOk(sc, i, sc.derived[i].deps[k]))
    && (forall i, j :: 0 <= i < j < |sc.declOrder| ==> sc.declOrder[i] != sc.declOrder[j])
    && (forall n :: n in sc.attrs ==> n in sc.declOrder)
    && (forall i :: 0 <= i < |sc.declOrder| ==> sc.declOrder[i] in sc.attrs)
    && sc.tests.Keys <= sc.attrs.Keys
  }

  /** The position of a derived property in the compiled order. */
  function FindDerived(ds: seq<DerivedSpec>, n: string): (r: Option<nat>)
    ensures r.Some? ==> r.value < |ds| && ds[r.value].name == n
    ensures r.None? <==> forall i :: 0 <= i < |ds| ==> ds[i].name != n
  {
    if ds == [] then None
    else if ds[0].name == n then Some(0)
    else
      match FindDerived(ds[1..], n)
      case Some(i) => Some(i + 1)
      case None => None
  }

  /** The expanded dependency set of derived property `i`: its direct dependencies and,
      for every dependency that is itself derived, that property's expanded set. */
  function ExpandedDeps(sc: Schema, i: nat): set<string>
    requires WF(sc) && i < |sc.derived|
    decreases i, 1, 0
  {
    DepsFrom(sc, i, 0)
  }

  /** The part of `ExpandedDeps(sc, i)` contributed by the dependencies from `k` on. */
  function DepsFrom(sc: Schema, i: nat, k: nat): set<string>
    requires WF(sc) && i < |sc.derived| && k <= |sc.derived[i].deps|
    decreases i, 0, |sc.derived[i].deps| - k
  {
    if k == |sc.derived[i].deps| then {}
    else
      var more := DepsFrom(sc, i, k + 1);
      match sc.derived[i].deps[k]
      case OnBase(n) => {n} + more
      case OnDerived(n, j) => {n} + ExpandedDeps(sc, j) + more
  }

  /** A dependency is hit by a change of the names in `c` when it names one of them or
      is a derived property already marked as affected. */
  predicate DirectHit(c: set<string>, d: Dep, marks: seq<bool>) {
    match d
    case OnBase(n) => n in c
    case OnDerived(n, j) => n in c || (j < |marks| && marks[j])
  }

  predicate Hit(sc: Schema, c: set<string>, i: nat, marks: seq<bool>)
    requires i < |sc.derived|
  {
    exists k :: 0 <= k < |sc.derived[i].deps| && DirectHit(c, sc.derived[i].deps[k], marks)
  }

  lemma {:induction false} DepsFromHit(sc: Schema, c: set<string>, i: nat, k: nat, marks: seq<bool>)
    requires WF(sc) && i < |sc.derived| && k <= |sc.derived[i].deps| && |marks| == i
    requires forall j :: 0 <= j < i ==> (marks[j] <==> ExpandedDeps(sc, j) * c != {})
    ensures (exists k' :: k <= k' < |sc.derived[i].deps| && DirectHit(c, sc.derived[i].deps[k'], marks))
            <==> DepsFrom(sc, i, k) * c != {}
    decreases |sc.derived[i].deps| - k
  {
    var deps := sc.derived[i].deps;
    if k < |deps| {
      DepsFromHit(sc, c, i, k + 1, marks);
      assert DepOk(sc, i, deps[k]);
      if (exists k' :: k <= k' < |deps| && DirectHit(c, deps[k'], marks)) {
        var k' :| k <= k' < |deps| && DirectHit(c, deps[k'], marks);
        if k' > k {
          assert DepsFrom(sc, i, k + 1) * c != {};
          assert DepsFrom(sc, i, k + 1) <= DepsFrom(sc, i, k);
        } else {
          match deps[k]
          case OnBase(n) => assert n in DepsFrom(sc, i, k) * c;
          case OnDerived(n, j) =>
            if n !in c {
              var x :| x in ExpandedDeps(sc, j) * c;
              assert x in DepsFrom(sc, i, k) * c;
            } else {
              assert n in DepsFrom(sc, i, k) * c;
            }
        }
      } else {
        assert DepsFrom(sc, i, k + 1) * c == {};
        match deps[k]
        case OnBase(n) => assert n !in c;
        case OnDerived(n, j) =>
          assert n !in c && !marks[j];
          assert ExpandedDeps(sc, j) * c == {};
      }
    }
  }

  /** Marks the derived properties affected by a change of the names in `c`, one
      property at a time in compiled order, each judged from its direct dependencies
      and the marks of the properties before it: one-hop propagation along the
      compiled order reaches exactly the properties whose expanded dependency set
      meets `c`. */
  function Marks(sc: Schema, c: set<string>, n: nat): (m: seq<bool>)
    requires WF(sc) && n <= |sc.derived|
    ensures |m| == n
    ensures forall i :: 0 <= i < n ==> (m[i] <==> ExpandedDeps(sc, i) * c != {})
  {
    if n == 0 then []
    else
      var m := Marks(sc, c, n - 1);
      DepsFromHit(sc, c, n - 1, 0, m);
      m + [Hit(sc, c, n - 1, m)]
  }

  /** The indices of the derived properties to invalidate and re-evaluate when the
      names in `c` change. */
  function Affected(sc: Schema, c: set<string>): (r: set<nat>)
    requires WF(sc)
    ensures forall i: nat :: i in r <==> i < |sc.derived| && ExpandedDeps(sc, i) * c != {}
  {
    var m := Marks(sc, c, |sc.derived|);
    set i | 0 <= i < |sc.derived| && m[i]
  }

  /** Every derived property that `i` depends on directly is in its expanded set,
      together with that property's own expanded set. */
  lemma ExpandedDepsIncludesDerivedDeps(sc: Schema, i: nat, k: nat)
    requires WF(sc) && i < |sc.derived| && k < |sc.derived[i].deps|
    requires sc.derived[i].deps[k].OnDerived?
    ensures sc.derived[i].deps[k].name in ExpandedDeps(sc, i)
    ensures ExpandedDeps(sc, sc.derived[i].deps[k].index) <= ExpandedDeps(sc, i)
  {
    DepsFromMonotone(sc, i, 0, k);
    assert DepOk(sc, i, sc.derived[i].deps[k]);
  }

  /** A change reaches a property through its derived dependencies: when a derived
      property it depends on is affected, so is the property. */
  lemma AffectedPropagates(sc: Schema, c: set<string>, i: nat, k: nat)
    requires WF(sc) && i < |sc.derived| && k < |sc.derived[i].deps|
    requires sc.derived[i].deps[k].OnDerived? && sc.derived[i].deps[k].index in Affected(sc, c)
    ensures i in Affected(sc, c)
  {
    ExpandedDepsIncludesDerivedDeps(sc, i, k);
    var x :| x in ExpandedDeps(sc, sc.derived[i].deps[k].index) * c;
    assert x in ExpandedDeps(sc, i) * c;
  }

  lemma {:induction false} DepsFromMonotone(sc: Schema, i: nat, k: nat, k': nat)
    requires WF(sc) && i < |sc.derived| && k <= k' <= |sc.derived[i].deps|
    ensures DepsFrom(sc, i, k') <= DepsFrom(sc, i, k)
    decreases k' - k
  {
    if k < k' {
      DepsFromMonotone(sc, i, k + 1, k');
      assert DepOk(sc, i, sc.derived[i].deps[k]);
    }
  }
}

=== FILE: store.dfy ===
/** The state of one instance: its value store, previous values, derived cache and
    compute counters. */
module Store {
  import opened Values
  import opened Schema

  /** One instance. `values` holds every declared, session and ad-hoc attribute that
      has a value; `previous` the values as they stood before the most recent `set`
      pass; `cache` the memoized values of cacheable derived properties; `runs` how
      many times each derived property's `fn` has been invoked; `policy` the instance's
      `extraProperties` setting. */
  datatype State = State(
    values: map<string, Value>,
    previous: map<string, Value>,
    cache: map<string, Value>,
    runs: map<string, nat>,
    policy: Policy)

  /** How many times the `fn` of derived property `n` has run. */
  function Runs(s: State, n: string): nat {
    if n in s.runs then s.runs[n] else 0
  }

  /** Counts one more run of derived property `n`. */
  function Bump(s: State, n: string): (s': State)
    ensures Runs(s', n) == Runs(s, n) + 1
    ensures forall m :: m != n ==> Runs(s', m) == Runs(s, m)
    ensures s'.values == s.values && s'.previous == s.previous && s'.cache == s.cache && s'.policy == s.policy
  {
    s.(runs := s.runs[n := Runs(s, n) + 1])
  }
}

=== FILE: values.dfy ===
/**
 * The values an attribute can hold and the built-in data types that check and
 * coerce them: `string`, `number`, `boolean`, `date`, `object`, `array` and `any`.
 */
module Values {
  import opened Wrappers

  /** A JavaScript value as it reaches the attribute engine. `Date` is a Date object
      holding milliseconds since the epoch; numbers are modelled as integers. An
      attribute that holds no value (`undefined`) is absent from the value store
      rather than represented here. */
  datatype Value =
    | Null
    | Str(s: string)
    | Num(n: int)
    | Bool(b: bool)
    | Date(epoch: int)
    | Obj(fields: map<string, Value>)
    | Arr(items: seq<Value>)

  /** The built-in data type names a property can declare. A declaration without a
      type behaves as `any`. */
  datatype TypeName = TString | TNumber | TBoolean | TDate | TObject | TArray | TAny

  /** A value is of a type when its runtime shape matches the type's name. `null` is
      of every type here: whether it is admitted is decided by `allowNull`. */
  predicate HasType(v: Value, t: TypeName) {
    v.Null? ||
    match t
    case TString => v.Str?
    case TNumber => v.Num?
    case TBoolean => v.Bool?
    case TDate => v.Date?
    case TObject => v.Obj?
    case TArray => v.Arr?
    case TAny => true
  }

  predicate IsDigit(c: char) {
    '0' <= c <= '9'
  }

  /** A string the date type reads as a count of milliseconds: one or more decimal digits. */
  predicate IsNumeric(s: string) {
    |s| > 0 && forall i :: 0 <= i < |s| ==> IsDigit(s[i])
  }

  /** The number a string of decimal digits denotes. */
  function ParseDigits(s: string): nat
    requires forall i :: 0 <= i < |s| ==> IsDigit(s[i])
    decreases |s|
  {
    if s == [] then 0
    else
      assert IsDigit(s[|s| - 1]);
      10 * ParseDigits(s[..|s| - 1]) + (s[|s| - 1] as int - '0' as int)
  }

  function DigitChar(d: nat): (c: char)
    requires d < 10
    ensures IsDigit(c) && c as int - '0' as int == d
  {
    ['0', '1', '2', '3', '4', '5', '6', '7', '8', '9'][d]
  }

  /** The decimal spelling of a natural number, as `String(n)` writes it. */
  function Digits(n: nat): (s: string)
    ensures IsNumeric(s)
  {
    if n < 10 then [DigitChar(n)] else Digits(n / 10) + [DigitChar(n % 10)]
  }

  /** Reading back the decimal spelling of a number gives the number. */
  lemma {:induction false} ParseDigitsInverse(n: nat)
    ensures ParseDigits(Digits(n)) == n
  {
    var s := Digits(n);
    if n >= 10 {
      assert s[..|s| - 1] == Digits(n / 10);
      ParseDigitsInverse(n / 10);
    }
  }

  /** The `set` step of a built-in data type: the value to store, or None when the raw
      value cannot be represented as `t` (`set` throws a TypeError). Only `date`
      converts: an epoch number or a numeric string becomes a Date. */
  function Coerce(t: TypeName, raw: Value): (r: Option<Value>)
    ensures r.Some? ==> HasType(r.value, t)
    ensures HasType(raw, t) ==> r == Some(raw)
    ensures t != TDate ==> (r.Some? <==> HasType(raw, t))
    ensures t == TDate ==> (r.Some? <==> HasType(raw, t) || raw.Num? || (raw.Str? && IsNumeric(raw.s)))
  {
    if raw.Null? then Some(Null)
    else
      match t
      case TAny => Some(raw)
      case TString => if raw.Str? then Some(raw) else None
      case TNumber => if raw.Num? then Some(raw) else None
      case TBoolean => if raw.Bool? then Some(raw) else None
      case TObject => if raw.Obj? then Some(raw) else None
      case TArray => if raw.Arr? then Some(raw) else None
      case TDate =>
        if raw.Date? then Some(raw)
        else if raw.Num? then Some(Date(raw.n))
        else if raw.Str? && IsNumeric(raw.s) then Some(Date(ParseDigits(raw.s)))
        else None
  }

  /** Coercion is idempotent: a coerced value is stored as it is when written again. */
  lemma CoerceIdempotent(t: TypeName, raw: Value)
    requires Coerce(t, raw).Some?
    ensures Coerce(t, Coerce(t, raw).value) == Coerce(t, raw)
  {
  }

  /** The date type accepts an epoch both as a number and as its decimal string, and
      both denote the same Date. */
  lemma DateAcceptsEpochString(n: nat)
    ensures Coerce(TDate, Str(Digits(n))) == Coerce(TDate, Num(n)) == Some(Date(n))
  {
    ParseDigitsInverse(n);
  }
}

=== FILE: wrappers.dfy ===
/** Optional values and results, used for the engine's "absent" values and its error paths. */
module Wrappers {

  datatype Option<+T> = None | Some(value: T) {

    /** The wrapped value, or `default` when there is none. */
    function GetOr(default: T): T {
      match this
      case Some(v) => v
      case None => default
    }
  }

  datatype Result<+T, +E> = Ok(value: T) | Err(error: E)
}

=== FILE: writes.dfy ===
/**
 * The write pipeline: what one write of a raw value to a name does, and how the
 * writes of one `set` call are applied in order.
 */
module Writes {
  import opened Wrappers
  import opened Values
  import opened Schema

  /** The failures of a write or a toggle. */
  datatype Error =
    | DerivedWrite(name: string)
    | UnknownProperty(name: string)
    | WrongType(name: string, expected: TypeName)
    | NullNotAllowed(name: string)
    | NotInValues(name: string)
    | TestFailed(name: string, message: string)
    | NotToggleable(name: string)

  /** The message an error carries. */
  function Message(e: Error): (m: string)
    ensures e.TestFailed? ==> m == e.message
    ensures e.DerivedWrite? ==> m == DerivedMessage(e.name)
  {
    match e
    case DerivedWrite(n) => DerivedMessage(n)
    case UnknownProperty(n) => "No \"" + n + "\" property defined on this model and extraProperties is \"reject\""
    case WrongType(n, _) => "Property \"" + n + "\" has the wrong type"
    case NullNotAllowed(n) => "Property \"" + n + "\" must not be null"
    case NotInValues(n) => "Property \"" + n + "\" must be one of its allowed values"
    case TestFailed(_, m) => m
    case NotToggleable(n) => "Can only toggle properties that are type \"boolean\" or have \"values\" array"
  }

  /** The message of a write to a derived property: it names the property, in quotes,
      first. */
  function DerivedMessage(n: string): (m: string)
    ensures |m| > |n| + 2 && m[..|n| + 2] == "\"" + n + "\""
  {
    var m := "\"" + n + "\"" + " is a" + " derived" + " property," + " it can't" + " be set" + " directly.";
    assert m[..|n| + 2] == "\"" + n + "\"";
    m
  }

  /** The message of a write to derived property `name` reads exactly as follows. */
  lemma DerivedWriteMessage()
    ensures Message(DerivedWrite("name")) == "\"name\" is a derived property, it can't be set directly."
  {
    assert "\"" + "name" + "\"" == "\"name\"";
    assert "\"name\"" + " is a" == "\"name\" is a";
    assert "\"name\" is a" + " derived" == "\"name\" is a derived";
    assert "\"name\" is a derived" + " property," == "\"name\" is a derived property,";
    assert "\"name\" is a derived property," + " it can't" == "\"name\" is a derived property, it can't";
    assert "\"name\" is a derived property, it can't" + " be set" == "\"name\" is a derived property, it can't be set";
    assert "\"name\" is a derived property, it can't be set" + " directly." == "\"name\" is a derived property, it can't be set directly.";
  }

  /** A property's `test` verdict: a non-empty message rejects, an empty or absent one
      accepts. */
  function TestVerdict(sc: Schema, name: string, v: Value): (r: Option<string>)
    ensures r.Some? ==> |r.value| > 0 && name in sc.tests && sc.tests[name](v) == r
    ensures r.None? ==> name !in sc.tests || sc.tests[name](v).None? || sc.tests[name](v) == Some("")
  {
    if name in sc.tests then
      match sc.tests[name](v)
      case Some(m) => if |m| > 0 then Some(m) else None
      case None => None
    else None
  }

  /** A value a declared property may hold: of its type, null only where allowed,
      one of its `values` when it has them, and accepted by its `test`. */
  predicate Conforms(sc: Schema, name: string, v: Value)
    requires name in sc.attrs
  {
    var a := sc.attrs[name];
    && HasType(v, a.typeName)
    && (v.Null? ==> a.allowNull)
    && (a.values.Some? ==> v in a.values.value)
    && TestVerdict(sc, name, v).None?
  }

  /** The validation steps for a declared property: type coercion, null-ability,
      membership of `values`, the `test` function, in that order. */
  function Validate(sc: Schema, name: string, raw: Value): (r: Result<Value, Error>)
    requires name in sc.attrs
    ensures r.Ok? <==> Coerce(sc.attrs[name].typeName, raw).Some?
                       && Conforms(sc, name, Coerce(sc.attrs[name].typeName, raw).value)
    ensures r.Ok? ==> r.value == Coerce(sc.attrs[name].typeName, raw).value
    ensures r.Err? ==> r.error.name == name && !r.error.DerivedWrite? && !r.error.UnknownProperty?
    ensures Coerce(sc.attrs[name].typeName, raw).None? ==> r == Err(WrongType(name, sc.attrs[name].typeName))
  {
    var a := sc.attrs[name];
    match Coerce(a.typeName, raw)
    case None => Err(WrongType(name, a.typeName))
    case Some(v) =>
      if v.Null? && !a.allowNull then Err(NullNotAllowed(name))
      else if a.values.Some? && v !in a.values.value then Err(NotInValues(name))
      else match TestVerdict(sc, name, v)
        case Some(m) => Err(TestFailed(name, m))
        case None => Ok(v)
  }

  /** Which check refuses a representable value: `null` without `allowNull`, then a
      value outside `values`, then a message from the `test` function, which becomes
      the error's message. */
  lemma ValidateRefusals(sc: Schema, name: string, raw: Value)
    requires name in sc.attrs && Coerce(sc.attrs[name].typeName, raw).Some?
    ensures var a := sc.attrs[name];
      var v := Coerce(a.typeName, raw).value;
      && (v.Null? && !a.allowNull ==> Validate(sc, name, raw) == Err(NullNotAllowed(name)))
      && ((v.Null? ==> a.allowNull) && a.values.Some? && v !in a.values.value ==>
            Validate(sc, name, raw) == Err(NotInValues(name)))
      && ((v.Null? ==> a.allowNull) && (a.values.Some? ==> v in a.values.value) && TestVerdict(sc, name, v).Some? ==>
            Validate(sc, name, raw) == Err(TestFailed(name, TestVerdict(sc, name, v).value)))
  {
  }

  /** A value that conforms is accepted unchanged, so validation is idempotent. */
  lemma ValidateAcceptsConforming(sc: Schema, name: string, v: Value)
    requires name in sc.attrs && Conforms(sc, name, v)
    ensures Validate(sc, name, v) == Ok(v)
  {
    CoerceIdempotent(sc.attrs[name].typeName, v);
  }

  /** What the pipeline decides for one accepted write. */
  datatype Admission = Drop | Store(value: Value)

  /** One write of `raw` to `name`: derived names are refused, names the schema does
      not declare follow the policy, declared ones are validated. */
  function Admit(sc: Schema, policy: Policy, name: string, raw: Value): (r: Result<Admission, Error>)
    requires name in sc.attrs ==> !IsDerivedName(sc, name)
    ensures IsDerivedName(sc, name) ==> r == Err(DerivedWrite(name))
    ensures !IsDerivedName(sc, name) && name !in sc.attrs ==>
      match policy
      case Ignore => r == Ok(Drop)
      case Allow => r == Ok(Store(raw))
      case Reject => r == Err(UnknownProperty(name))
    ensures name in sc.attrs ==> r.Ok? == Validate(sc, name, raw).Ok?
    ensures name in sc.attrs && r.Ok? ==> r.value == Store(Validate(sc, name, raw).value)
    ensures name in sc.attrs && r.Ok? ==> Conforms(sc, name, r.value.value)
    ensures name in sc.attrs && r.Err? ==> r.error == Validate(sc, name, raw).error
    ensures r.Err? ==> r.error.name == name
  {
    if IsDerivedName(sc, name) then Err(DerivedWrite(name))
    else if name !in sc.attrs then
      match policy
      case Ignore => Ok(Drop)
      case Allow => Ok(Store(raw))
      case Reject => Err(UnknownProperty(name))
    else
      match Validate(sc, name, raw)
      case Ok(v) => Ok(Store(v))
      case Err(e) => Err(e)
  }

  // ---------------------------------------------------------------------------
  // The writes of one call

  /** The writes of one `set` call, in the order given; names are distinct, as the
      keys of the object passed to `set` are. */
  type Writes = seq<(string, Value)>

  predicate DistinctNames(ws: Writes) {
    forall i, j :: 0 <= i < j < |ws| ==> ws[i].0 != ws[j].0
  }

  predicate Written(ws: Writes, n: string) {
    exists k :: 0 <= k < |ws| && ws[k].0 == n
  }

  predicate Distinct(s: seq<string>) {
    forall i, j :: 0 <= i < j < |s| ==> s[i] != s[j]
  }

  /** `n` holds a different value in `after` than in `before` (or holds one only now). */
  predicate Differs(before: map<string, Value>, after: map<string, Value>, n: string) {
    n in after && (n !in before || after[n] != before[n])
  }

  /** The outcome of applying writes: the new values, the names whose value changed
      (in write order), and the failure that stopped the call, if any. */
  datatype Applied = Applied(values: map<string, Value>, changed: seq<string>, failure: Option<Error>)

  /** Applies `ws` in order; the first refused write stops the call, and the writes
      before it stay applied. */
  function ApplyWrites(sc: Schema, policy: Policy, vals: map<string, Value>, ws: Writes): (r: Applied)
    requires WF(sc) && DistinctNames(ws)
    ensures forall n :: n in vals ==> n in r.values
    ensures forall n :: !Written(ws, n) ==> (n in r.values <==> n in vals) && (n in vals ==> r.values[n] == vals[n])
    ensures forall n :: n in r.changed <==> Differs(vals, r.values, n)
    ensures Distinct(r.changed)
    decreases |ws|
  {
    if |ws| == 0 then Applied(vals, [], None)
    else
      var (n, raw) := ws[0];
      Rest(ws);
      match Admit(sc, policy, n, raw)
      case Err(e) => Applied(vals, [], Some(e))
      case Ok(Drop) => ApplyWrites(sc, policy, vals, ws[1..])
      case Ok(Store(v)) =>
        var rest := ApplyWrites(sc, policy, vals[n := v], ws[1..]);
        assert n !in rest.changed;
        Applied(rest.values, (if n !in vals || vals[n] != v then [n] else []) + rest.changed, rest.failure)
  }

  /** The writes after the first: distinct, and exactly the other names. */
  lemma Rest(ws: Writes)
    requires |ws| > 0 && DistinctNames(ws)
    ensures DistinctNames(ws[1..])
    ensures forall m :: Written(ws[1..], m) <==> Written(ws, m) && m != ws[0].0
    ensures Written(ws, ws[0].0)
    ensures forall k :: 1 <= k < |ws| ==> ws[k] == ws[1..][k - 1]
  {
    forall m | Written(ws[1..], m) ensures Written(ws, m) && m != ws[0].0 {
      var k :| 0 <= k < |ws[1..]| && ws[1..][k].0 == m;
      assert ws[k + 1].0 == m;
    }
    forall m | Written(ws, m) && m != ws[0].0 ensures Written(ws[1..], m) {
      var k :| 0 <= k < |ws| && ws[k].0 == m;
      assert ws[1..][k - 1].0 == m;
    }
    assert ws[0].0 == ws[0].0;
  }

  /** Write `w` was admitted, and `after` shows its effect on `before`: a dropped write
      left its name alone, a stored one left it holding the admitted value. */
  predicate Landed(sc: Schema, policy: Policy, before: map<string, Value>, w: (string, Value), after: map<string, Value>)
    requires w.0 in sc.attrs ==> !IsDerivedName(sc, w.0)
  {
    match Admit(sc, policy, w.0, w.1)
    case Err(_) => false
    case Ok(Drop) => (w.0 in after <==> w.0 in before) && (w.0 in before ==> after[w.0] == before[w.0])
    case Ok(Store(v)) => w.0 in after && after[w.0] == v
  }

  /** A call that completes admitted every write: a dropped write leaves its name alone,
      a stored one leaves its name holding the admitted value; only written names
      change. */
  lemma {:induction false} AppliedWrites(sc: Schema, policy: Policy, vals: map<string, Value>, ws: Writes)
    requires WF(sc) && DistinctNames(ws)
    ensures var r := ApplyWrites(sc, policy, vals, ws);
      && (forall k :: 0 <= k < |r.changed| ==> Written(ws, r.changed[k]))
      && (r.failure.None? ==> forall k :: 0 <= k < |ws| ==> Landed(sc, policy, vals, ws[k], r.values))
    decreases |ws|
  {
    if |ws| > 0 {
      Rest(ws);
      if Admit(sc, policy, ws[0].0, ws[0].1).Ok? {
        AppliedWrites(sc, policy, After(sc, policy, vals, ws[0]), ws[1..]);
        LandedAfter(sc, policy, vals, ws);
      }
    }
  }

  /** The values after one admitted write. */
  function After(sc: Schema, policy: Policy, vals: map<string, Value>, w: (string, Value)): map<string, Value>
    requires WF(sc) && Admit(sc, policy, w.0, w.1).Ok?
  {
    match Admit(sc, policy, w.0, w.1).value
    case Drop => vals
    case Store(v) => vals[w.0 := v]
  }

  /** The step of `AppliedWrites`: when the writes after an admitted first one landed
      on the values it left, all of them landed on the values before it. */
  lemma LandedAfter(sc: Schema, policy: Policy, vals: map<string, Value>, ws: Writes)
    requires WF(sc) && |ws| > 0 && DistinctNames(ws) && DistinctNames(ws[1..])
    requires Admit(sc, policy, ws[0].0, ws[0].1).Ok?
    requires var mid := After(sc, policy, vals, ws[0]);
      var rest := ApplyWrites(sc, policy, mid, ws[1..]);
      rest.failure.None? ==> forall k :: 0 <= k < |ws[1..]| ==> Landed(sc, policy, mid, ws[1..][k], rest.values)
    ensures var r := ApplyWrites(sc, policy, vals, ws);
      r.failure.None? ==> forall k :: 0 <= k < |ws| ==> Landed(sc, policy, vals, ws[k], r.values)
  {
    var mid := After(sc, policy, vals, ws[0]);
    var rest := ApplyWrites(sc, policy, mid, ws[1..]);
    Rest(ws);
    assert ApplyWrites(sc, policy, vals, ws).values == rest.values;
    assert ApplyWrites(sc, policy, vals, ws).failure == rest.failure;
    if rest.failure.None? {
      forall k | 0 <= k < |ws| ensures Landed(sc, policy, vals, ws[k], rest.values) {
        if k > 0 {
          assert Landed(sc, policy, mid, ws[1..][k - 1], rest.values);
        }
      }
    }
  }

  /** A failing write stops the call: the writes before it stay applied, the ones
      after it are not made, and the call reports the failing write's error. */
  lemma {:induction false} PartialApply(sc: Schema, policy: Policy, vals: map<string, Value>, pre: Writes, bad: (string, Value), post: Writes)
    requires WF(sc) && DistinctNames(pre + [bad] + post) && DistinctNames(pre)
    requires forall k :: 0 <= k < |pre| ==> Admit(sc, policy, pre[k].0, pre[k].1).Ok?
    requires Admit(sc, policy, bad.0, bad.1).Err?
    ensures var r := ApplyWrites(sc, policy, vals, pre + [bad] + post);
      && r.values == ApplyWrites(sc, policy, vals, pre).values
      && r.changed == ApplyWrites(sc, policy, vals, pre).changed
      && r.failure == Some(Admit(sc, policy, bad.0, bad.1).error)
    decreases |pre|
  {
    var ws := pre + [bad] + post;
    if |pre| == 0 {
      assert ws[0] == bad;
    } else {
      assert ws[0] == pre[0];
      assert ws[1..] == pre[1..] + [bad] + post;
      assert DistinctNames(pre[1..]) by {
        forall i, j | 0 <= i < j < |pre[1..]| ensures pre[1..][i].0 != pre[1..][j].0 {
          assert pre[1..][i] == pre[i + 1] && pre[1..][j] == pre[j + 1];
        }
      }
      assert forall k :: 0 <= k < |pre[1..]| ==> pre[1..][k] == pre[k + 1];
      var (n, raw) := pre[0];
      match Admit(sc, policy, n, raw).value
      case Drop =>
        PartialApply(sc, policy, vals, pre[1..], bad, post);
      case Store(v) =>
        PartialApply(sc, policy, vals[n := v], pre[1..], bad, post);
    }
  }

  /** A call with a single refused write changes nothing. */
  lemma RefusedWriteKeepsValues(sc: Schema, policy: Policy, vals: map<string, Value>, name: string, raw: Value)
    requires WF(sc) && Admit(sc, policy, name, raw).Err?
    ensures ApplyWrites(sc, policy, vals, [(name, raw)]) == Applied(vals, [], Some(Admit(sc, policy, name, raw).error))
  {
  }

  /** Every name that differs between `before` and `after` is not a derived name, and
      a declared one holds a conforming value. */
  ghost predicate ChangesConform(sc: Schema, before: map<string, Value>, after: map<string, Value>) {
    forall n :: Differs(before, after, n) ==>
      !IsDerivedName(sc, n) && (n in sc.attrs ==> Conforms(sc, n, after[n]))
  }

  /** Every value a call changes went through the pipeline: it is not a derived name,
      and a declared property's new value conforms to its specification. */
  lemma {:induction false} AppliedValuesConform(sc: Schema, policy: Policy, vals: map<string, Value>, ws: Writes)
    requires WF(sc) && DistinctNames(ws)
    ensures ChangesConform(sc, vals, ApplyWrites(sc, policy, vals, ws).values)
    decreases |ws|
  {
    if |ws| > 0 {
      var (n, raw) := ws[0];
      Rest(ws);
      match Admit(sc, policy, n, raw)
      case Err(_) =>
      case Ok(Drop) =>
        AppliedValuesConform(sc, policy, vals, ws[1..]);
      case Ok(Store(v)) =>
        AppliedValuesConform(sc, policy, vals[n := v], ws[1..]);
        StoredConforms(sc, vals, n, v, ApplyWrites(sc, policy, vals[n := v], ws[1..]).values);
    }
  }

  /** A stored admitted value followed by conforming changes is a conforming change. */
  lemma StoredConforms(sc: Schema, vals: map<string, Value>, n: string, v: Value, after: map<string, Value>)
    requires !IsDerivedName(sc, n) && (n in sc.attrs ==> Conforms(sc, n, v))
    requires n in after && after[n] == v
    requires ChangesConform(sc, vals[n := v], after)
    ensures ChangesConform(sc, vals, after)
  {
  }

  /** A call that fails reports the error of one of its writes. */
  lemma {:induction false} FailureFromWrite(sc: Schema, policy: Policy, vals: map<string, Value>, ws: Writes)
    requires WF(sc) && DistinctNames(ws)
    ensures var r := ApplyWrites(sc, policy, vals, ws);
      r.failure.Some? ==> exists k :: 0 <= k < |ws| && Admit(sc, policy, ws[k].0, ws[k].1) == Err(r.failure.value)
    decreases |ws|
  {
    if |ws| > 0 {
      var (n, raw) := ws[0];
      Rest(ws);
      var r := ApplyWrites(sc, policy, vals, ws);
      match Admit(sc, policy, n, raw)
      case Err(e) =>
        assert Admit(sc, policy, ws[0].0, ws[0].1) == Err(r.failure.value);
      case Ok(Drop) =>
        FailureFromWrite(sc, policy, vals, ws[1..]);
        if r.failure.Some? {
          var k :| 0 <= k < |ws[1..]| && Admit(sc, policy, ws[1..][k].0, ws[1..][k].1) == Err(r.failure.value);
          assert ws[k + 1] == ws[1..][k];
        }
      case Ok(Store(v)) =>
        FailureFromWrite(sc, policy, vals[n := v], ws[1..]);
        if r.failure.Some? {
          var k :| 0 <= k < |ws[1..]| && Admit(sc, policy, ws[1..][k].0, ws[1..][k].1) == Err(r.failure.value);
          assert ws[k + 1] == ws[1..][k];
        }
    }
  }
}
